=== FILE: README.md ===
# Sequential cores of the osue exercises, in Dafny

This project models the sequential logic of four small C programs from the
operating-systems exercises of the repository, and proves what they compute.

- **intmul** (`2/intmul`): multiplies two hexadecimal numbers read from
  standard input. The operands are padded to a common power-of-two length.
  Operands of one digit are multiplied directly. Longer ones are split into
  halves, four child processes compute the partial products, and the parent
  shifts and adds them as digit strings (`hex.c`). Module `Hex` models
  `half_str`, `fill_zeroes`, `shift_left`, `add` and `multiply`. Module
  `IntMul` models `receive_rands`, `evaluate_prod`, `fork_multiply` and
  `main`. Each forked child is a recursive call of the whole program on the
  two lines its parent writes into the pipe. The program comes in two
  variants. `AsWritten` multiplies single digits with `multiply`, as `main`
  does; `multiply` reads them with the decimal `parse_int`, so any digit
  a-f makes it fail. `Corrected` reads the digits as hexadecimal
  (`IntMul.BaseProduct`). The headline lemmas (`IntMul.Multiplies`,
  `IntMul.RunMultiplies`) prove that the printed line denotes the product
  of the operands: for the corrected program on all hexadecimal operands,
  and for the program as written on operands made of the digits 0-9.
- **parse_int** in two variants: the multiplier's `misc.c` (module
  `IntMulMisc`, with `remove_newline` and `is_hex`) and the HTTP exercise's
  `misc.c` (module `HttpMisc`, which also sets `errno` and accepts a null
  destination). `strtol` in base 10 is modelled by its grammar in `CLib`.
- **The feedback-arc-set generator** (`1/b`): module `Graph` models
  `add_vertex`, `add_edge`, the Fisher-Yates `shuffle` and `is_after`.
  Module `Generator` models `init_graph`, `generate_fas` and the ten rounds
  of `search_smallest_fas`. The draws of `rand()` are a parameter. The
  rounds are modelled as written (`Generator.Rounds`, scanning only as many
  vertices as there are edges) and with the corrected scan over all
  vertices (`Generator.RoundsCorrected`).
- **The palindrome checker** (`1/ispalindrom`): module `StrFun` models
  `trim`, `remove_newline` and `to_lower`. Module `Palindrom` models
  `is_palindrom`, the line reports of `check_file`, and the file loop of
  `main`. A file is modelled by its contents, or by `None` when it cannot be
  opened.

Shared modules:

- `Results` holds `Option` and `Result`.
- `Arith` holds `Max`, `Min` and `Pow`.
- `CLib` holds the C library behaviour the programs rely on: `isspace`,
  `tolower`, `strspn`, `strtol`, and the lines `getline` returns.
- `HexDigits` holds digit values, the value `HexVal` of a hexadecimal
  string, and the digits `printf("%x")` prints.

A C string is modelled by the characters before its terminating NUL.

Where a header disagrees with a definition, the model follows the
definition:

- `multiply` is declared `void` with a `long *` at `2/intmul/hex.h:5`, but
  defined as `int` with a `char **` at `2/intmul/hex.c:6`.
- `add` takes `char *` operands at `2/intmul/hex.h:26`, but `char **` at
  `2/intmul/hex.c:63`.
- `add_edge` takes an `edge_t *` at `1/b/graph.h:24`, but is called with two
  integers at `1/b/generator.c:45`. The model adds the edge (start, end).
- The comment on `is_after` at `1/b/graph.h:46` gives the return values the
  other way round from the code. The model follows the code: 0 when the
  start comes first, 1 when the end comes first.
- `remove_newline` is `void`, yet its value is used at
  `1/ispalindrom/ispalindrom.c:81`. The model takes that value to be the
  line after the newline is removed.

## Model

| member | source | states |
|---|---|---|
| IntMulMisc.HexSpan | 2/intmul/misc.c:52 | `strspn` over the accept set "0123456789abcdefABCDEF" reaches the end of the string exactly when every character is a hexadecimal digit |
| IntMulMisc.IsHex | 2/intmul/misc.c:51-54 | `is_hex` returns 0 or -1, and 0 exactly for non-empty strings whose characters are all hexadecimal digits of either case |
| IntMulMisc.RemoveNewline | 2/intmul/misc.c:34-38 | on a non-empty string, the result is a prefix that is one character shorter exactly when the last character is a newline, and the same string otherwise |
| IntMulMisc.ParseInt | 2/intmul/misc.c:40-49 | a null source fails; success holds exactly for the empty string or a complete numeral (optional white space and sign, then digits to the end) whose value lies in 0..INT_MAX; the value stored is that numeral's value, or 0 for "" |
| IntMulMisc.ParseIntRoundTrip | 2/intmul/misc.c:44-48 | the decimal text of any n ≤ INT_MAX parses back to n |
| IntMulMisc.ParseIntTooLarge | 2/intmul/misc.c:46 | the decimal text of any n > INT_MAX is refused |
| IntMulMisc.ParseIntNegative | 2/intmul/misc.c:45 | a minus sign before any non-zero number is refused |
| IntMulMisc.ParseIntBlank | 2/intmul/misc.c:44-45 | a non-empty string of white space only is refused, because `strtol` finds no digit and leaves the end pointer at the start |
| CLib.Strtol | 2/intmul/misc.c:44 | `strtol` in base 10: the end pointer is left at the start, with value 0, exactly when no digit follows the white space and optional sign; otherwise it stops just past the longest run of digits there; on a complete numeral the end pointer is the end of the string and the value is the numeral's value; every value lies in the range of `long` |
| CLib.StrtolReadsNumeral | 2/intmul/misc.c:44 | what `strtol` consumes is a complete numeral, and the value it returns is that numeral's value saturated to the range of `long` |
| HttpMisc.ParseInt | 3/http/misc.c:33-48 | returns 0 or -1; 0 exactly for a non-null source the other variant accepts; EINVAL is set exactly on a rejected non-null source; a null destination stays null and nothing is written through it; on failure the destination is unchanged; on success it holds the parsed value; a message is printed exactly on a rejected non-null source |
| HttpMisc.SameAsIntMul | 3/http/misc.c:33-48 | the two `parse_int` variants accept the same sources and store the same value |
| HttpMisc.RejectionMessage | 3/http/misc.c:38-45 | a rejected string prints the bounds message exactly when it is a complete numeral above INT_MAX, and the "positive integer" message exactly when it is empty of digits, not a complete numeral, or negative |
| HttpMisc.ParseIntRoundTrip | 3/http/misc.c:46-47 | the decimal text of any n ≤ INT_MAX is accepted, stores n and sets no error |
| HexDigits.ToHex | 2/intmul/intmul.c:140 | the digits "%x" prints are lower-case hexadecimal, have no leading zero, and denote the value printed |
| Hex.HalfStr | 2/intmul/hex.c:26-31 | copies at most `half_length` characters of the source, from position `half_length` when `half` is 1 and from 0 otherwise, stopping early only at the end of the source |
| Hex.HalvesRebuild | 2/intmul/hex.c:26-31 | for a source of length 2·h, both halves have length h and the first followed by the second is the source |
| Hex.PowTargetLeast | 2/intmul/hex.c:36-38 | the doubling loop stops at the least power of two that is at least `min_len` |
| Hex.PowTargetOfPow2 | 2/intmul/hex.c:36-38 | the doubling target is below twice `min_len`, and equals `min_len` when that is already a power of two |
| Hex.FillZeroes | 2/intmul/hex.c:33-50 | the result has length max(original length, target), ends with the original string, and everything before it is '0' |
| Hex.FillZeroesValue | 2/intmul/hex.c:42-48 | padding a hexadecimal string keeps it hexadecimal and keeps its value |
| Hex.FillZeroesLower | 2/intmul/hex.c:47-48 | padding keeps lower-case digits lower-case |
| Hex.FillZeroesDigits | 2/intmul/hex.c:47-48 | padding a string of the digits 0-9 leaves it made of 0-9 only |
| Hex.ShiftLeft | 2/intmul/hex.c:52-61 | the length grows by n, the original string is kept as a prefix, and the n characters appended are '0' |
| Hex.ShiftLeftValue | 2/intmul/hex.c:52-61 | shifting by n digits multiplies the value by 16^n |
| Hex.PadOperands | 2/intmul/hex.c:64-66 | both operands are padded to the longer length, each ends with the original operand, and each keeps its value |
| Hex.Column | 2/intmul/hex.c:74-79 | one column of `add` yields a digit below 16 and a carry of at most 1, with digit + 16·carry equal to the column sum |
| Hex.AddDigits | 2/intmul/hex.c:70-88 | the digit loop fails exactly when a scanned character is not a hexadecimal digit; otherwise it yields lower-case digits, of the operand length or one more with a leading '1' |
| Hex.AddDigitsValue | 2/intmul/hex.c:70-83 | the loop invariant: the final value is (value of the unscanned prefixes + carry) shifted past the digits written, plus those digits |
| Hex.Add | 2/intmul/hex.c:63-90 | succeeds exactly for two hexadecimal operands; the result is lower-case, its value is the sum of the operand values, and its length is the longer operand length, or one more with a leading '1' |
| Hex.Multiply | 2/intmul/hex.c:6-19 | as written: succeeds exactly when both operands pass the decimal `parse_int`; then the result is lower-case hexadecimal denoting the product of the two decimal values, zero-padded to exactly the longer of twice the length of `x` and the product's own "%x" digits |
| Hex.ParseDigit | 2/intmul/misc.c:40-49 | on one hexadecimal digit, the decimal `parse_int` succeeds exactly for 0-9, and then yields the digit's value |
| Hex.MultiplySingleDigits | 2/intmul/hex.c:6-19 | as written, on two single hexadecimal digits: succeeds exactly when both are 0-9, and then prints their product; any of a-f makes it fail |
| Hex.MultiplyRejectsHexLetters | 2/intmul/hex.c:8-11 | the single digits "a" and "b" denote 10 and 11, yet `multiply` refuses them |
| IntMul.ReceiveRands | 2/intmul/intmul.c:28-54 | succeeds exactly when the input has two lines that, without their newline, are non-empty hexadecimal strings; the operands returned are those two padded with zeros to the least power of two holding the longer one, with their values unchanged |
| IntMul.PadPair | 2/intmul/intmul.c:50-52 | padding both operands to the power-of-two target of the longer one gives strings of equal power-of-two length that end with the operands and keep their values |
| IntMul.ExtraLinesIgnored | 2/intmul/intmul.c:46 | lines after the second do not change what is read |
| IntMul.ChildInput | 2/intmul/intmul.c:50-52 | operands of equal power-of-two length pass through `receive_rands` unchanged |
| IntMul.EvaluateProd | 2/intmul/intmul.c:137-145 | prints one line of lower-case hexadecimal digits denoting the product; a product below 16^length takes exactly `length` digits |
| IntMul.BaseProduct | 2/intmul/intmul.c:196-200 | corrected single-digit case: with digits read as hexadecimal, the product is printed as exactly two digits and denotes the product of the digits |
| IntMul.BaseCase | 2/intmul/intmul.c:196-200 | the single-digit case of `main`: the AsWritten variant (`multiply`'s definition, with its -1 passed on as a failure) succeeds exactly when both digits are 0-9, the Corrected variant always succeeds; whenever it succeeds it prints one line of exactly two digits denoting the product of the digits' hexadecimal values |
| IntMul.RunSingleDigits | 2/intmul/intmul.c:196-199 | on two single hexadecimal digits the AsWritten variant (`multiply`'s definition, with its -1 passed on as a failure) fails exactly when one of them is a-f or A-F, while the Corrected variant always succeeds; either variant, when it succeeds, prints exactly two digits and a newline |
| IntMul.Run | 2/intmul/intmul.c:188-207 | any command-line argument makes the program fail, and a successful run has accepted its input (what it prints is stated by `IntMul.RunMultiplies`) |
| IntMul.Combine | 2/intmul/intmul.c:165-178 | shifting and summing the four partial products succeeds exactly when all four are hexadecimal, and yields lower-case digits |
| IntMul.CombineValue | 2/intmul/intmul.c:165-178 | the sum denotes (p0·16^h + p1 + p2)·16^h + p3 for partial products p0..p3 and half length h |
| IntMul.SplitShape | 2/intmul/intmul.c:149-154 | the halves of a padded operand are hexadecimal, have half its length (a power of two), and concatenate back to the operand |
| IntMul.SplitOperand | 2/intmul/intmul.c:149-154 | an operand's value is its high half times 16^(len/2) plus its low half |
| IntMul.ReadBack | 2/intmul/intmul.c:105-120 | the first line read back from a child, without its newline, is the digit string the child printed |
| IntMul.ChildMultiplies | 2/intmul/intmul.c:62-130 | a child given two operands of equal power-of-two length that the variant multiplies hands back the lower-case digits of their product |
| IntMul.ForkMultiplies | 2/intmul/intmul.c:148-186 | `fork_multiply` on padded operands of at least two digits that the variant multiplies prints a line denoting the product of their values |
| IntMul.RunMultiplies | 2/intmul/intmul.c:188-207 | with no argument and an accepted input, the program succeeds and prints the product of the two operands it read: the Corrected variant for any hexadecimal operands, the AsWritten variant (`multiply`'s definition, with its -1 passed on as a failure) for operands made of 0-9 |
| IntMul.Multiplies | 2/intmul/intmul.c:188-207 | the program, given two non-empty hexadecimal lines, prints one line denoting their product; for the AsWritten variant (`multiply`'s definition, with its -1 passed on as a failure) this holds when both lines are made of 0-9 |
| Graph.AddVertex | 1/b/graph.c:9-14 | the vertex is listed afterwards, and the list grows by at most one entry |
| Graph.AddVertexKeepsSet | 1/b/graph.c:9-14 | the list stays free of duplicates, afterwards holds exactly the old vertices and the new one, keeps the old list as its prefix, and grows exactly when the vertex was not listed |
| Graph.AddEdge | 1/b/graph.c:16-29 | the edge is listed afterwards; an edge already listed leaves the graph unchanged, and a new one is appended after the old edges; at most two vertices are added |
| Graph.AddEdgeWellFormed | 1/b/graph.c:16-29 | on a graph without duplicates whose vertices are the endpoints of its edges, `add_edge` keeps that so, lists the edge and both endpoints, and adds at most one edge and at most two vertices |
| Graph.AddEdgeAppends | 1/b/graph.c:21-27 | the old edges and vertices stay in place, in their order, ahead of anything added |
| Graph.AddEdgeEndpoints | 1/b/graph.c:16-29 | the endpoints of the edge list afterwards are the old endpoints together with the start and end of the new edge |
| Graph.ChoiceIsMod | 1/b/graph.c:41 | the swap index for a draw d at pass i is d mod (i+1) |
| Graph.SwapPermutes | 1/b/graph.c:42-44 | exchanging two entries keeps every entry with its multiplicity |
| Graph.PassesPermute | 1/b/graph.c:39-46 | whatever the draws, the Fisher-Yates passes keep every entry of the list with its multiplicity |
| Graph.Shuffle | 1/b/graph.c:39-46 | the loop from the last index down to 1 yields the passes over all indices; the result has the same length and multiset of entries, and a list of at most one entry comes back unchanged |
| Graph.ShuffleInPlace | 1/b/graph.c:39-46 | the swaps done in place on the array leave it holding the passes over its former contents, a permutation of them |
| Graph.IsAfterPositions | 1/b/graph.c:48-54 | the result is -1, 0 or 1: -1 exactly when neither endpoint is among the first `count` entries, 0 exactly when the start occurs no later than the end (self-loops included), and 1 exactly when the end occurs strictly first |
| Graph.ScanPositions | 1/b/graph.c:49-53 | the same three cases for the scan over a whole list |
| Graph.IsAfterBeyond | 1/b/graph.c:48-54 | once an endpoint is in the list, scanning past the list's end reads nothing beyond it: the answer is that of the scan over the list alone |
| Graph.IsAfterLonger | 1/b/graph.c:48-54 | once an endpoint is among the first `c1` entries, scanning more entries gives the same answer |
| Generator.InitGraphWellFormed | 1/b/generator.c:33-54 | the graph built from the arguments has no duplicates, its vertices are the endpoints of its edges, its edges are exactly the arguments, and it fits buffers of one edge and two vertices per argument |
| Generator.FasScan | 1/b/generator.c:65-71 | the set collected never holds more entries than there are edges, so the `fas` buffer cannot overflow |
| Generator.FasScanMembers | 1/b/generator.c:66-70 | an edge is collected exactly when it is one of the graph's edges and `is_after` reports it with 1 |
| Generator.FasScanSubsequence | 1/b/generator.c:66-70 | the set collected keeps the relative order of `g->edges`: it is the edge list with some edges left out |
| Generator.FasScanWithin | 1/b/generator.c:66-70 | scanning fewer entries of the order collects some of the same edges, in the same order |
| Generator.GenerateFasAsWritten | 1/b/generator.c:64-72 | as written, `is_after` is told the order has `edges_count` entries; since it returns at the first endpoint, that is a scan of at most all the vertices; the set is no larger than the edge list |
| Generator.AsWrittenStaysInside | 1/b/generator.c:68 | however many entries past the vertex list `is_after` is allowed to read, when every endpoint is a vertex it reports the same as the scan of at most all the vertices |
| Generator.AsWrittenWithin | 1/b/generator.c:64-72 | the as-written set lists edges of the graph in their order, and only edges the corrected set lists too, in the same order; with at least as many edges as vertices the two sets are equal |
| Generator.GenerateFas | 1/b/generator.c:64-72 | corrected, scanning all vertices: the set is no larger than the edge list |
| Generator.FasIsBackwardEdges | 1/b/generator.c:64-72 | when the order lists every endpoint, the corrected set holds exactly the edges whose end comes before their start |
| Generator.KeptEdgeForward | 1/b/generator.c:66-70 | an edge left out of the corrected set is a self-loop or goes forwards in the order |
| Generator.FasBreaksCycles | 1/b/generator.c:56-72 | without the edges of the corrected set, the remaining edges contain no cycle apart from self-loops |
| Generator.Rounds | 1/b/generator.c:77-90 | as written: one set is reported per round, each after shuffling the vertex list in place |
| Generator.RoundsCorrected | 1/b/generator.c:77-90 | with the corrected scan: one set is reported per round, each after shuffling the vertex list in place |
| Generator.RoundsAt | 1/b/generator.c:78-81 | round r as written reports the as-written scan of the vertex list left by the shuffles of rounds 0 to r |
| Generator.RoundsCorrectedAt | 1/b/generator.c:78-81 | round r with the corrected scan reports the corrected scan of that same vertex list |
| Generator.RoundsWithin | 1/b/generator.c:77-90 | in every round, the set as written lists edges of the graph in their order and only edges the corrected round lists; with at least as many edges as vertices the two rounds report the same set |
| Generator.RoundsCorrectedBreakCycles | 1/b/generator.c:77-90 | whatever the draws, the corrected set of every round breaks every cycle through distinct vertices |
| Generator.SearchBreaksCycles | 1/b/generator.c:74-93 | as written, on the graph `init_graph` builds: each of the ten sets lists edges of the graph in their order; when the arguments name at least as many distinct edges as vertices, each set breaks every cycle through distinct vertices |
| Generator.SearchCorrectedBreaksCycles | 1/b/generator.c:74-93 | with the corrected scan, on the graph `init_graph` builds: each of the ten sets breaks every cycle through distinct vertices |
| Generator.AsWrittenMissesCycle | 1/b/generator.c:68 | for the arguments `0-1 1-0 2-3 4-5` and draws 1,0,1,0,1, the as-written scan reports nothing although 0-1-0 is a cycle; the corrected scan reports 1-0 |
| Generator.ExampleRound | 1/b/generator.c:78-81 | a one-round search on the arguments `0-1 1-0 2-3 4-5` with draws 1,0,1,0,1 reports the empty set as written and the edge 1-0 with the corrected scan |
| StrFun.Trim | 1/ispalindrom/strfun.c:5-14 | the result is no longer than the source and contains no blank |
| StrFun.TrimCopy | 1/ispalindrom/strfun.c:5-14 | the copy loop yields the source with its blanks removed |
| StrFun.TrimConcat | 1/ispalindrom/strfun.c:7-12 | trimming a concatenation trims each part |
| StrFun.TrimChar | 1/ispalindrom/strfun.c:8-11 | a single character is kept exactly when it is not code 32 |
| StrFun.TrimIdempotent | 1/ispalindrom/strfun.c:5-14 | trimming twice is trimming once |
| StrFun.TrimCounts | 1/ispalindrom/strfun.c:7-12 | every character other than the blank survives as often as it occurs, tabs and newlines included, and no blank survives |
| StrFun.RemoveNewlineOfLine | 1/ispalindrom/strfun.c:16-20 | a line `getline` returned loses its newline and nothing else |
| StrFun.ToLower | 1/ispalindrom/strfun.c:22-26 | the length is kept, each character is mapped by `tolower`, no capital letter remains, and other characters are unchanged |
| StrFun.ToLowerIdempotent | 1/ispalindrom/strfun.c:22-26 | lower-casing twice is lower-casing once |
| Palindrom.MirrorScanMatches | 1/ispalindrom/ispalindrom.c:58-62 | the comparison loop from index i answers 1 exactly when every character from i up to the middle matches its mirror, and 0 otherwise |
| Palindrom.IsPalindromReverse | 1/ispalindrom/ispalindrom.c:57-64 | on a non-empty line the answer is 1 exactly when the line equals its reversal, and 0 otherwise |
| Palindrom.CaseMatters | 1/ispalindrom/ispalindrom.c:59 | "Aa" is not reported as a palindrome while "aa" is |
| Palindrom.Report | 1/ispalindrom/ispalindrom.c:85-89 | a line equal to its reversal is reported followed by " is a palindrom\n", any other line followed by " is not a palindrom\n" |
| Palindrom.CheckFileLine | 1/ispalindrom/ispalindrom.c:66-100 | a newline-terminated first line adds its report, or nothing when it is empty, before the output for the rest of the file |
| Palindrom.CheckFileLastLine | 1/ispalindrom/ispalindrom.c:79-96 | a last line without a newline is reported as it is |
| Palindrom.RunFiles | 1/ispalindrom/ispalindrom.c:40-54 | the exit status is 0 or 1, and 0 exactly when every file can be opened |
| Palindrom.Run | 1/ispalindrom/ispalindrom.c:35-54 | without a file operand the usage is printed and the status is EXIT_FAILURE; the status is EXIT_SUCCESS exactly when there is a file operand and every file can be opened; without `-o` the output is the reports of the files up to the first one that cannot be opened, with `-o` nothing |
| Palindrom.RunFilesOutput | 1/ispalindrom/ispalindrom.c:44-49 | without `-o`, the output is the reports of the files in order, up to the first one that cannot be opened; with `-o`, nothing is printed |
| Palindrom.FlagsIgnored | 1/ispalindrom/ispalindrom.c:14-25 | the flags `-s` and `-i` do not change the output or the status |

## Left out

- Process plumbing: `fork_child`'s pipes, `fork`, `dup2`, `execlp` and
  `waitpid` (`2/intmul/intmul.c:62-130`). A child is the program run
  recursively on the two lines written into its pipe. A failing child fails
  the parent.
- Memory management. Every `malloc`, `calloc` and `realloc` is taken to
  succeed. This drops the error returns of `add_edge`, `init_graph`,
  `fill_zeroes`, `shift_left` and `add`, and the exits in `check_file`.
- Error printers (`m_err`, `t_err`, `e_err`). Only their -1 return is kept,
  and `HttpMisc` also keeps which message is printed.
- The shared-memory ring buffer, the semaphores, `open_sem`/`close_sem`,
  the supervisor, and the HTTP client. These are concurrency or network
  code, and the ring-buffer operations have no body in the repository.
- `getopt`: the options of the palindrome checker arrive as an `Options`
  value. `sscanf("%i-%i")` in `init_graph`: the edges arrive parsed, so a
  malformed argument, which leaves `start` and `end` uninitialised, is not
  modelled.
- `srand(getpid())` and `rand()`: the draws are a parameter, one sequence
  per round.
- Printing: the `FAS:` lines of `search_smallest_fas` are not modelled, only
  the sets they print.
- Hex.Multiply: the product is an unbounded integer, not a 32-bit `int`.
  Its only caller passes single digits, whose product cannot overflow.
- With more edges than vertices, `generate_fas` allows `is_after` to read
  past the vertex buffer. It never does: every endpoint is a vertex and
  `is_after` returns at the first endpoint it meets
  (`Generator.AsWrittenStaysInside`). The model therefore scans at most
  all the vertices.
- Generator.InitGraph: its own contract states only the case without
  arguments, which `main` never reaches because it calls `usage` first
  (`1/b/generator.c:97`). What it builds is stated by
  `Generator.InitGraphWellFormed`.
- IntMul.Run: in the single-digit case `main` ignores the -1 that
  `multiply` returns and prints the uninitialised `prod_dec` with exit
  status 0 (`2/intmul/intmul.c:197-199`). On success `multiply` stores a
  `char *` into that `long`, so `evaluate_prod` prints the pointer's value
  and not the product. The model returns `Err` where `multiply` fails, so a
  child whose `multiply` fails fails its parent. Where `multiply`
  succeeds, the model prints the digits `multiply` wrote.
- IntMul.BaseCase, IntMul.RunSingleDigits, IntMul.RunMultiplies and
  IntMul.Multiplies: what they state about the AsWritten variant is about
  `multiply` with its -1 passed on as a failure. They do not state what the
  binary's `main` prints, which is the garbage or pointer value described
  under `IntMul.Run` above, always with exit status 0.
- Hex.PowTarget, Hex.FillZeroes, Hex.Add and Hex.Multiply: lengths are
  unbounded integers. In C, `fill_zeroes` doubles an `int new_len`
  (`2/intmul/hex.c:36-38`), which overflows once `min_len` exceeds 2^30, and
  `add`'s `int len` and `multiply`'s `strlen(x) * 2` are `int`s too
  (`2/intmul/hex.c:13`, `2/intmul/hex.c:64`). The model matches the
  program only for operands shorter than 2^30 characters. No precondition
  states this.
- Palindrom.IsPalindromReverse and Palindrom.Report: each `char` of a line
  stands for one byte. `is_palindrom` compares bytes, so the UTF-8 line
  "éé" (bytes c3 a9 c3 a9) is not a palindrome for the program, while the
  model, reading it as two characters, calls it one.
- `LONG_MAX` and `LONG_MIN` assume a 64-bit `long` (the LP64 data model).
  With a 32-bit `long`, `strtol` saturates at 2147483647, so
  `parse_int("2147483648")` would pass the `INT_MAX` test and be accepted
  with the value 2147483647. The model refuses it.
- `init_graph` tests `g->edges` twice (`1/b/generator.c:39`) instead of
  `g->vertices`. Allocation is taken to succeed, so this has no effect in
  the model.
- `receive_rands` ignores a failure of `fill_zeroes`
  (`2/intmul/intmul.c:51-52`). Allocation is taken to succeed.
- `max` is used by `hex.c` and `intmul.c` but defined in no file of the
  repository. It is modelled as the maximum of two integers.
- `parse_c_int`, used by `add`, is defined in no file of the repository. It
  is modelled as the value of a hexadecimal digit of either case.
- `is_hex` is defined identically in `2/intmul/hex.c:21-24` and
  `2/intmul/misc.c:51-54`, so it is modelled once as `IntMulMisc.IsHex`.
  `remove_newline` of `1/ispalindrom/strfun.c:16-20` is the same as the one
  in `2/intmul/misc.c:34-38`, so it is modelled once as
  `IntMulMisc.RemoveNewline`.
- `check_file` appends to a fresh, uninitialised `malloc(1)` buffer and
  `strcat`s past the end of the line buffer (`1/ispalindrom/ispalindrom.c:72,
  86-88`). Both are undefined behaviour. The model starts from empty output
  and builds each report as a fresh string.
- `check_file` exits the process when a file cannot be opened. The model
  ends the file loop with status 1, after the reports already printed.
- `-o outfile`: the program writes nothing to the file, and the model
  prints nothing.
- `trim` and `to_lower` are never called by `main`. They are modelled on
  their own.
- Strings holding NUL characters are not modelled.

## Findings

| source | as written | input that shows it | evidently intended | confidence | as-written member | corrected member |
|---|---|---|---|---|---|---|
| 2/intmul/hex.c:8-11 | `multiply` reads single hexadecimal digits with the decimal `parse_int`, so the letters a-f fail | standard input "a\nb\n": `multiply` fails, although a·b = 0x6e | the digits are read as hexadecimal and their product printed as two hexadecimal digits | not executed | IntMul.RunSingleDigits | IntMul.BaseProduct |
| 1/b/generator.c:68 | `generate_fas` passes `edges_count` to `is_after` as the length of the vertex order, so only that many vertices are scanned | arguments `0-1 1-0 2-3 4-5` with draws 1,0,1,0,1: the order 2 3 4 5 0 1 is scanned only up to 5, and the reported set is empty although 0-1 and 1-0 form a cycle | the whole vertex order (`vertices_count` entries) is scanned, so the reported set breaks every cycle | not executed | Generator.ExampleRound | Generator.SearchCorrectedBreaksCycles |

=== FILE: arith.dfy ===
/** Small arithmetic helpers shared by the numeral modules. */
module Arith {

  /** `max` as declared next to the hex helpers (its definition is not part of this model). */
  function Max(a: int, b: int): int
  {
    if a >= b then a else b
  }

  function Min(a: int, b: int): int
  {
    if a <= b then a else b
  }

  /** `base` raised to `n`: the place value of digit position `n` in a numeral. */
  function Pow(base: nat, n: nat): nat
  {
    if n == 0 then 1 else base * Pow(base, n - 1)
  }

  lemma {:induction false} PowPositive(base: nat, n: nat)
    requires base > 0
    ensures Pow(base, n) > 0
  {
    if n > 0 {
      PowPositive(base, n - 1);
      assert base * Pow(base, n - 1) > 0 by {
        MulPositive(base, Pow(base, n - 1));
      }
    }
  }

  lemma {:induction false} MulPositive(a: int, b: int)
    requires a > 0 && b > 0
    ensures a * b > 0
  {
  }

  lemma {:induction false} PowAdd(base: nat, m: nat, n: nat)
    ensures Pow(base, m + n) == Pow(base, m) * Pow(base, n)
  {
    if m > 0 {
      PowAdd(base, m - 1, n);
      var p, q := Pow(base, m - 1), Pow(base, n);
      assert Pow(base, m + n) == base * (p * q);
      MulAssoc(base, p, q);
    }
  }

  lemma {:induction false} MulAssoc(a: int, b: int, c: int)
    ensures a * (b * c) == (a * b) * c
  {
  }

  /** A remainder is determined by any quotient/remainder split of the dividend. */
  lemma ModUnique(a: int, m: int, q: int, r: int)
    requires m > 0 && a == m * q + r && 0 <= r < m
    ensures r == a % m
  {
    var k := q - a / m;
    assert m * k == a % m - r;
  }
}

=== FILE: clib.dfy ===
/**
 * The parts of the C library the programs rely on, stated over strings
 * (a C string is modelled by the characters before its terminating NUL):
 * character classes, `tolower`, `strspn`, `strtol` in base 10, and the
 * lines `getline` delivers from a stream.
 */
module CLib {
  import opened Results
  import opened Arith

  const INT_MAX: int := 0x7fff_ffff
  const LONG_MAX: int := 0x7fff_ffff_ffff_ffff
  const LONG_MIN: int := -0x8000_0000_0000_0000

  /** `isspace` in the "C" locale: blank, tab, newline, vertical tab, form feed, carriage return. */
  predicate IsSpace(c: char)
  {
    c == ' ' || '\t' <= c <= '\r'
  }

  predicate IsDigit(c: char)
  {
    '0' <= c <= '9'
  }

  predicate AllDigits(s: string)
  {
    forall i :: 0 <= i < |s| ==> IsDigit(s[i])
  }

  /** `tolower` in the "C" locale: only the letters A-Z change. */
  function Tolower(c: char): (r: char)
    ensures 'A' <= c <= 'Z' ==> 'a' <= r <= 'z' && r as int - 'a' as int == c as int - 'A' as int
    ensures !('A' <= c <= 'Z') ==> r == c
  {
    if 'A' <= c <= 'Z' then (c as int - 'A' as int + 'a' as int) as char else c
  }

  /** `strspn`: length of the longest prefix of `s` made only of characters of `accept`. */
  function Strspn(s: string, accept: string): (n: nat)
    ensures n <= |s|
    ensures forall i :: 0 <= i < n ==> s[i] in accept
    ensures n == |s| || s[n] !in accept
  {
    if |s| == 0 || s[0] !in accept then 0 else 1 + Strspn(s[1..], accept)
  }

  // ---------------------------------------------------------------------
  // strtol(s, &end, 10)
  // ---------------------------------------------------------------------

  /** Value of a digit string, most significant digit first. */
  function DecVal(s: string): nat
    requires AllDigits(s)
  {
    if |s| == 0 then 0 else DecVal(s[..|s| - 1]) * 10 + (s[|s| - 1] as int - '0' as int)
  }

  /** Index of the first character of `s` that is not white space. */
  function SpaceRun(s: string): (n: nat)
    ensures n <= |s|
    ensures forall i :: 0 <= i < n ==> IsSpace(s[i])
    ensures n == |s| || !IsSpace(s[n])
  {
    if |s| == 0 || !IsSpace(s[0]) then 0 else 1 + SpaceRun(s[1..])
  }

  /** Index just past the run of digits starting at `from`. */
  function DigitRun(s: string, from: nat): (n: nat)
    requires from <= |s|
    ensures from <= n <= |s|
    ensures forall i :: from <= i < n ==> IsDigit(s[i])
    ensures n == |s| || !IsDigit(s[n])
    decreases |s| - from
  {
    if from == |s| || !IsDigit(s[from]) then from else DigitRun(s, from + 1)
  }

  /**
   * The grammar a complete decimal numeral follows: white space, an
   * optional sign, then one or more digits up to the end of the string.
   * The result is the value denoted, or None when `s` is not such a numeral.
   */
  function Numeral(s: string): Option<int>
  {
    var w := SpaceRun(s);
    var signed := w < |s| && (s[w] == '+' || s[w] == '-');
    var p := if signed then w + 1 else w;
    if p < |s| && AllDigits(s[p..]) then
      var m: int := DecVal(s[p..]);
      Some(if signed && s[w] == '-' then -m else m)
    else
      None
  }

  /** Saturation of an out-of-range conversion to the range of `long`. */
  function Clamp(v: int): int
  {
    if v > LONG_MAX then LONG_MAX else if v < LONG_MIN then LONG_MIN else v
  }

  /** What `strtol` returns and where it leaves the end pointer (an index into `s`). */
  datatype Conversion = Conversion(value: int, end: nat)

  /** Index just past the leading white space and the optional sign: where the digits must begin. */
  function NumeralStart(s: string): (p: nat)
    ensures SpaceRun(s) <= p <= |s|
  {
    var w := SpaceRun(s);
    if w < |s| && (s[w] == '+' || s[w] == '-') then w + 1 else w
  }

  /**
   * `strtol(s, &end, 10)`: skips white space, reads an optional sign and the
   * longest run of digits. Without any digit it returns 0 and sets the end
   * pointer back to the start of `s`; otherwise the end pointer stops at the
   * first character after the digits, and an out-of-range value saturates.
   */
  function Strtol(s: string): (r: Conversion)
    ensures r.end <= |s|
    ensures LONG_MIN <= r.value <= LONG_MAX
    ensures r.end == 0 <==> NumeralStart(s) == |s| || !IsDigit(s[NumeralStart(s)])
    ensures r.end == 0 ==> r.value == 0
    ensures r.end > 0 ==> NumeralStart(s) < r.end && AllDigits(s[NumeralStart(s)..r.end])
    ensures r.end > 0 ==> r.end == |s| || !IsDigit(s[r.end])
    ensures Numeral(s).Some? ==> r == Conversion(Clamp(Numeral(s).value), |s|)
    ensures 0 < |s| == r.end ==> Numeral(s).Some?
  {
    var w := SpaceRun(s);
    var signed := w < |s| && (s[w] == '+' || s[w] == '-');
    var p := NumeralStart(s);
    var q := DigitRun(s, p);
    if q == p then
      Conversion(0, 0)
    else
      var m: int := DecVal(s[p..q]);
      assert q == |s| ==> s[p..q] == s[p..];
      Conversion(Clamp(if signed && s[w] == '-' then -m else m), q)
  }

  /** Cutting `s` after its leading white space leaves that white space as it is. */
  lemma {:induction false} SpaceRunPrefix(s: string, n: nat)
    requires SpaceRun(s) < n <= |s|
    ensures SpaceRun(s[..n]) == SpaceRun(s)
  {
    if IsSpace(s[0]) {
      assert s[..n][1..] == s[1..][..n - 1];
      SpaceRunPrefix(s[1..], n - 1);
    }
  }

  /**
   * What `strtol` consumed is a complete numeral, and the value returned is
   * that numeral's value saturated to the range of `long`.
   */
  lemma {:induction false} StrtolReadsNumeral(s: string)
    ensures Strtol(s).end > 0 ==> Numeral(s[..Strtol(s).end]).Some?
    ensures Strtol(s).end > 0 ==> Strtol(s).value == Clamp(Numeral(s[..Strtol(s).end]).value)
  {
    var q := Strtol(s).end;
    if q > 0 {
      var t := s[..q];
      SpaceRunPrefix(s, q);
      var w := SpaceRun(s);
      assert t[w] == s[w];
      assert t[NumeralStart(s)..] == s[NumeralStart(s)..q];
    }
  }

  /** The digits `printf("%d")` prints for a non-negative value. */
  function ToDecimal(n: nat): (s: string)
    ensures 0 < |s| && AllDigits(s)
    ensures DecVal(s) == n
    decreases n
  {
    var d := (n % 10 + '0' as int) as char;
    if n < 10 then [d]
    else
      var t := ToDecimal(n / 10);
      assert (t + [d])[..|t|] == t;
      t + [d]
  }

  /** A printed non-negative number is a numeral denoting itself. */
  lemma {:induction false} NumeralOfDecimal(n: nat)
    ensures Numeral(ToDecimal(n)) == Some(n)
  {
    var s := ToDecimal(n);
    assert !IsSpace(s[0]);
    assert s[0..] == s;
  }

  // ---------------------------------------------------------------------
  // getline
  // ---------------------------------------------------------------------

  /** Index just past the first newline of `s`, or `|s|` when there is none. */
  function LineEnd(s: string): (k: nat)
    ensures k <= |s|
    ensures |s| > 0 ==> k > 0
    ensures forall i :: 0 <= i < k - 1 ==> s[i] != '\n'
    ensures 0 < k < |s| ==> s[k - 1] == '\n'
  {
    if |s| == 0 then 0 else if s[0] == '\n' then 1 else 1 + LineEnd(s[1..])
  }

  function Concat(ls: seq<string>): string
  {
    if |ls| == 0 then [] else ls[0] + Concat(ls[1..])
  }

  /**
   * The successive results of `getline` on a stream holding `text`: each is
   * non-empty, ends at (and includes) a newline except possibly the last,
   * and together they are the whole text.
   */
  function Lines(text: string): (ls: seq<string>)
    ensures Concat(ls) == text
    ensures forall i :: 0 <= i < |ls| ==> |ls[i]| > 0
    ensures forall i :: 0 <= i < |ls| - 1 ==> ls[i][|ls[i]| - 1] == '\n'
    ensures forall i, j :: 0 <= i < |ls| && 0 <= j < |ls[i]| - 1 ==> ls[i][j] != '\n'
    decreases |text|
  {
    if |text| == 0 then []
    else
      var k := LineEnd(text);
      var rest := Lines(text[k..]);
      assert ([text[..k]] + rest)[1..] == rest;
      assert text[..k] + text[k..] == text;
      [text[..k]] + rest
  }

  /** A newline-free line followed by a newline is what `getline` returns first. */
  lemma {:induction false} LinesAfterLine(x: string, rest: string)
    requires '\n' !in x
    ensures Lines(x + "\n" + rest) == [x + "\n"] + Lines(rest)
  {
    var s := x + "\n" + rest;
    var k := LineEnd(s);
    assert s[|x|] == '\n';
    assert k == |x| + 1;
    assert s[..k] == x + "\n";
    assert s[k..] == rest;
  }
}

=== FILE: generator.dfy ===
/**
 * The feedback-arc-set generator of `generator.c`: building the graph from
 * the edge arguments, the feedback arc set of one vertex order, and the ten
 * rounds of shuffling and reporting.
 */
module Generator {

  import opened Graph
  import Arith

  /** Rounds of `search_smallest_fas`. */
  const ROUNDS: nat := 10

  // ---------------------------------------------------------------------
  // init_graph
  // ---------------------------------------------------------------------

  /**
   * `init_graph`: adds the edges of the arguments one by one, starting from
   * the empty graph of `main`.
   */
  function InitGraph(pairs: seq<Edge>): (g: Graph)
    ensures pairs == [] ==> g == EMPTY
  {
    if |pairs| == 0 then EMPTY
    else AddEdge(InitGraph(pairs[..|pairs| - 1]), pairs[|pairs| - 1])
  }

  /**
   * The edge and vertex buffers of `init_graph` are sized for one edge and
   * two vertices per argument, and the graph never needs more; it is well
   * formed and holds exactly the given edges.
   */
  lemma {:induction false} InitGraphWellFormed(pairs: seq<Edge>)
    ensures WellFormed(InitGraph(pairs))
    ensures |InitGraph(pairs).edges| <= |pairs| && |InitGraph(pairs).vertices| <= 2 * |pairs|
    ensures forall e :: e in InitGraph(pairs).edges <==> e in pairs
  {
    if |pairs| > 0 {
      InitGraphWellFormed(pairs[..|pairs| - 1]);
      InitGraphStep(pairs, InitGraph(pairs[..|pairs| - 1]));
    }
  }

  /** One argument more: what `InitGraphWellFormed` states carries over `add_edge`. */
  lemma {:induction false} InitGraphStep(pairs: seq<Edge>, g0: Graph)
    requires |pairs| > 0
    requires WellFormed(g0)
    requires |g0.edges| <= |pairs| - 1 && |g0.vertices| <= 2 * (|pairs| - 1)
    requires forall e :: e in g0.edges <==> e in pairs[..|pairs| - 1]
    ensures var g := AddEdge(g0, pairs[|pairs| - 1]);
            && WellFormed(g)
            && |g.edges| <= |pairs| && |g.vertices| <= 2 * |pairs|
            && forall e :: e in g.edges <==> e in pairs
  {
    var init, last := pairs[..|pairs| - 1], pairs[|pairs| - 1];
    AddEdgeWellFormed(g0, last);
    assert pairs == init + [last];
  }

  // ---------------------------------------------------------------------
  // generate_fas
  // ---------------------------------------------------------------------

  /**
   * The loop of `generate_fas`: in edge order, keeps every edge that
   * `is_after` reports as going backwards in the first `count` entries of
   * `order`.
   */
  function FasScan(order: seq<int>, count: int, edges: seq<Edge>): (fas: seq<Edge>)
    requires 0 <= count <= |order|
    ensures |fas| <= |edges|
  {
    if |edges| == 0 then []
    else
      var rest := FasScan(order, count, edges[..|edges| - 1]);
      if IsAfter(order, count, edges[|edges| - 1]) > 0 then rest + [edges[|edges| - 1]] else rest
  }

  /** The scan keeps exactly the edges `is_after` reports with 1. */
  lemma {:induction false} FasScanMembers(order: seq<int>, count: int, edges: seq<Edge>)
    requires 0 <= count <= |order|
    ensures forall e :: e in FasScan(order, count, edges) <==> e in edges && IsAfter(order, count, e) > 0
  {
    if |edges| > 0 {
      var init, last := edges[..|edges| - 1], edges[|edges| - 1];
      FasScanMembers(order, count, init);
      assert edges == init + [last];
    }
  }

  /** `a` is `b` with some entries left out and the others kept in their order. */
  predicate Subsequence<T(==)>(a: seq<T>, b: seq<T>)
    decreases |b|
  {
    || |a| == 0
    || (&& |b| > 0
        && (|| (a[|a| - 1] == b[|b| - 1] && Subsequence(a[..|a| - 1], b[..|b| - 1]))
            || Subsequence(a, b[..|b| - 1])))
  }

  /** The scan keeps the edges it reports in the order of `edges`. */
  lemma {:induction false} FasScanSubsequence(order: seq<int>, count: int, edges: seq<Edge>)
    requires 0 <= count <= |order|
    ensures Subsequence(FasScan(order, count, edges), edges)
  {
    if |edges| > 0 {
      var init, last := edges[..|edges| - 1], edges[|edges| - 1];
      var rest := FasScan(order, count, init);
      FasScanSubsequence(order, count, init);
      if IsAfter(order, count, last) > 0 {
        var fas := rest + [last];
        assert fas[..|fas| - 1] == rest;
      }
    }
  }

  /** Scanning fewer entries of the order reports some of the same edges, in the same order. */
  lemma {:induction false} FasScanWithin(order: seq<int>, c1: int, c2: int, edges: seq<Edge>)
    requires 0 <= c1 <= c2 <= |order|
    ensures Subsequence(FasScan(order, c1, edges), FasScan(order, c2, edges))
  {
    if |edges| > 0 {
      var init, last := edges[..|edges| - 1], edges[|edges| - 1];
      var r1, r2 := FasScan(order, c1, init), FasScan(order, c2, init);
      FasScanWithin(order, c1, c2, init);
      if IsAfter(order, c1, last) > 0 {
        IsAfterLonger(order, c1, c2, last);
        var f1, f2 := r1 + [last], r2 + [last];
        assert f1[..|f1| - 1] == r1 && f2[..|f2| - 1] == r2;
      } else if IsAfter(order, c2, last) > 0 {
        var f2 := r2 + [last];
        assert f2[..|f2| - 1] == r2;
      }
    }
  }

  /** Scans on which `is_after` agrees for every edge report the same set. */
  lemma {:induction false} FasScanAgree(o1: seq<int>, c1: int, o2: seq<int>, c2: int, edges: seq<Edge>)
    requires 0 <= c1 <= |o1| && 0 <= c2 <= |o2|
    requires forall e :: e in edges ==> IsAfter(o1, c1, e) == IsAfter(o2, c2, e)
    ensures FasScan(o1, c1, edges) == FasScan(o2, c2, edges)
  {
    if |edges| > 0 {
      var init := edges[..|edges| - 1];
      assert forall e :: e in init ==> e in edges;
      assert edges[|edges| - 1] in edges;
      FasScanAgree(o1, c1, o2, c2, init);
    }
  }

  /**
   * `generate_fas` as written: it hands `is_after` the number of EDGES as
   * the length of the vertex order. With more edges than vertices the loop
   * could run past the vertex list, but `is_after` returns at the first
   * endpoint it meets and every endpoint is a vertex, so it never does
   * (`AsWrittenStaysInside`): the scan covers at most the vertices.
   */
  function GenerateFasAsWritten(g: Graph): (fas: seq<Edge>)
    ensures |fas| <= |g.edges|
  {
    FasScan(g.vertices, Arith.Min(|g.edges|, |g.vertices|), g.edges)
  }

  /**
   * The as-written set lists edges of the graph in their order, and only
   * edges the corrected set lists too; with at least as many edges as
   * vertices the two sets are the same.
   */
  lemma {:induction false} AsWrittenWithin(g: Graph)
    ensures Subsequence(GenerateFasAsWritten(g), g.edges)
    ensures Subsequence(GenerateFasAsWritten(g), GenerateFas(g))
    ensures |g.vertices| <= |g.edges| ==> GenerateFasAsWritten(g) == GenerateFas(g)
  {
    var c := Arith.Min(|g.edges|, |g.vertices|);
    FasScanSubsequence(g.vertices, c, g.edges);
    FasScanWithin(g.vertices, c, |g.vertices|, g.edges);
  }

  /**
   * Whatever lies in memory after the vertex list (`beyond`), the as-written
   * scan over `|g.edges|` entries reports `GenerateFasAsWritten(g)` when the
   * vertices cover every endpoint.
   */
  lemma {:induction false} AsWrittenStaysInside(g: Graph, beyond: seq<int>)
    requires Covers(g.vertices, g.edges)
    requires |g.edges| <= |g.vertices| + |beyond|
    ensures FasScan(g.vertices + beyond, |g.edges|, g.edges) == GenerateFasAsWritten(g)
  {
    var c := Arith.Min(|g.edges|, |g.vertices|);
    forall e | e in g.edges
      ensures IsAfter(g.vertices + beyond, |g.edges|, e) == IsAfter(g.vertices, c, e)
    {
      IsAfterBeyond(g.vertices, beyond, |g.edges|, e);
    }
    FasScanAgree(g.vertices + beyond, |g.edges|, g.vertices, c, g.edges);
  }

  /**
   * `generate_fas` with the vertex count as the length of the order: the
   * edges that go backwards in `g.vertices`.
   */
  function GenerateFas(g: Graph): (fas: seq<Edge>)
    ensures |fas| <= |g.edges|
  {
    FasScan(g.vertices, |g.vertices|, g.edges)
  }

  // ---------------------------------------------------------------------
  // What the corrected generate_fas computes
  // ---------------------------------------------------------------------

  /** Every endpoint of every edge appears in `order`. */
  ghost predicate Covers(order: seq<int>, edges: seq<Edge>)
  {
    forall e :: e in edges ==> e.start in order && e.end in order
  }

  /** `e` goes forwards in `order`: its start comes strictly before its end. */
  predicate Forward(order: seq<int>, e: Edge)
  {
    Position(order, e.start) < Position(order, e.end)
  }

  /**
   * When the order lists every endpoint, the set of `generate_fas` holds
   * exactly the edges whose end comes before their start.
   */
  lemma {:induction false} FasIsBackwardEdges(g: Graph, e: Edge)
    requires Covers(g.vertices, g.edges)
    ensures e in GenerateFas(g) <==> e in g.edges && Position(g.vertices, e.end) < Position(g.vertices, e.start)
  {
    FasScanMembers(g.vertices, |g.vertices|, g.edges);
    IsAfterPositions(g.vertices, |g.vertices|, e);
    assert g.vertices[..|g.vertices|] == g.vertices;
  }

  /**
   * When the order lists every endpoint, an edge left out of the set is a
   * self-loop or goes forwards.
   */
  lemma {:induction false} KeptEdgeForward(g: Graph, e: Edge)
    requires Covers(g.vertices, g.edges)
    requires e in g.edges && e !in GenerateFas(g) && e.start != e.end
    ensures Forward(g.vertices, e)
  {
    FasIsBackwardEdges(g, e);
    var i, j := Position(g.vertices, e.start), Position(g.vertices, e.end);
    assert g.vertices[i] == e.start && g.vertices[j] == e.end;
  }

  /** `path` is a walk: every edge starts where the previous one ends. */
  predicate Chained(path: seq<Edge>)
  {
    forall k :: 0 <= k < |path| - 1 ==> path[k].end == path[k + 1].start
  }

  /** `path` is a closed walk. */
  predicate IsCycle(path: seq<Edge>)
  {
    |path| > 0 && Chained(path) && path[|path| - 1].end == path[0].start
  }

  /** Along a walk of forward edges the position in the order strictly rises. */
  lemma {:induction false} ForwardWalkRises(order: seq<int>, path: seq<Edge>)
    requires |path| > 0 && Chained(path)
    requires forall k :: 0 <= k < |path| ==> Forward(order, path[k])
    ensures Position(order, path[0].start) < Position(order, path[|path| - 1].end)
  {
    if |path| > 1 {
      var init := path[..|path| - 1];
      assert Forward(order, path[|path| - 1]);
      ForwardWalkRises(order, init);
      assert init[|init| - 1].end == path[|path| - 1].start;
    } else {
      assert Forward(order, path[0]);
    }
  }

  /**
   * The point of a feedback arc set: once its edges are removed, no cycle
   * of the remaining edges is left, apart from self-loops, which
   * `is_after` never reports.
   */
  lemma {:induction false} FasBreaksCycles(g: Graph, path: seq<Edge>)
    requires Covers(g.vertices, g.edges)
    requires forall k :: 0 <= k < |path| ==> path[k] in g.edges && path[k] !in GenerateFas(g)
    requires forall k :: 0 <= k < |path| ==> path[k].start != path[k].end
    ensures !IsCycle(path)
  {
    if IsCycle(path) {
      forall k | 0 <= k < |path| ensures Forward(g.vertices, path[k]) {
        KeptEdgeForward(g, path[k]);
      }
      ForwardWalkRises(g.vertices, path);
    }
  }

  /** A well-formed graph lists every endpoint of its edges among its vertices. */
  lemma {:induction false} WellFormedCovers(g: Graph)
    requires WellFormed(g)
    ensures Covers(g.vertices, g.edges)
  {
    forall e | e in g.edges ensures e.start in g.vertices && e.end in g.vertices {
      EndpointsMember(g.edges, e.start);
      EndpointsMember(g.edges, e.end);
    }
  }

  /** Reordering the vertices keeps every endpoint listed. */
  lemma {:induction false} CoversPermuted(order: seq<int>, order': seq<int>, edges: seq<Edge>)
    requires Covers(order, edges) && multiset(order') == multiset(order)
    ensures Covers(order', edges)
  {
    forall e | e in edges ensures e.start in order' && e.end in order' {
      assert e.start in multiset(order) && e.end in multiset(order);
    }
  }

  // ---------------------------------------------------------------------
  // search_smallest_fas
  // ---------------------------------------------------------------------

  /** The shuffle of one round: the vertex list permuted in place with that round's draws. */
  function Shuffled(g: Graph, d: seq<nat>): (g': Graph)
    requires |d| >= |g.vertices| - 1
    ensures g'.edges == g.edges && |g'.vertices| == |g.vertices|
    ensures multiset(g'.vertices) == multiset(g.vertices)
  {
    PassesPermute(g.vertices, 0, d);
    g.(vertices := Passes(g.vertices, 0, d))
  }

  /**
   * The rounds of `search_smallest_fas` still to run, as written: each
   * shuffles the vertex list with the draws of that round, then reports
   * the set of the as-written `generate_fas` for the new order.
   */
  function Rounds(g: Graph, draws: seq<seq<nat>>): (sets: seq<seq<Edge>>)
    requires forall k :: 0 <= k < |draws| ==> |draws[k]| >= |g.vertices| - 1
    ensures |sets| == |draws|
    decreases |draws|
  {
    if |draws| == 0 then []
    else
      var g' := Shuffled(g, draws[0]);
      [GenerateFasAsWritten(g')] + Rounds(g', draws[1..])
  }

  /** The same rounds with the corrected `generate_fas`. */
  function RoundsCorrected(g: Graph, draws: seq<seq<nat>>): (sets: seq<seq<Edge>>)
    requires forall k :: 0 <= k < |draws| ==> |draws[k]| >= |g.vertices| - 1
    ensures |sets| == |draws|
    decreases |draws|
  {
    if |draws| == 0 then []
    else
      var g' := Shuffled(g, draws[0]);
      [GenerateFas(g')] + RoundsCorrected(g', draws[1..])
  }

  /** The graph round `r` works on: the vertex list after the shuffles of rounds `0..r`. */
  function RoundGraph(g: Graph, draws: seq<seq<nat>>, r: nat): (gr: Graph)
    requires forall k :: 0 <= k < |draws| ==> |draws[k]| >= |g.vertices| - 1
    requires r < |draws|
    ensures gr.edges == g.edges && |gr.vertices| == |g.vertices|
    ensures multiset(gr.vertices) == multiset(g.vertices)
    decreases r
  {
    var g' := Shuffled(g, draws[0]);
    if r == 0 then g' else RoundGraph(g', draws[1..], r - 1)
  }

  /** Round `r` of the search as written reports the scan of the graph shuffled for that round. */
  lemma {:induction false} RoundsAt(g: Graph, draws: seq<seq<nat>>, r: nat)
    requires forall k :: 0 <= k < |draws| ==> |draws[k]| >= |g.vertices| - 1
    requires r < |draws|
    ensures Rounds(g, draws)[r] == GenerateFasAsWritten(RoundGraph(g, draws, r))
    decreases r
  {
    var g' := Shuffled(g, draws[0]);
    assert Rounds(g, draws) == [GenerateFasAsWritten(g')] + Rounds(g', draws[1..]);
    if r > 0 {
      assert RoundGraph(g, draws, r) == RoundGraph(g', draws[1..], r - 1);
      RoundsAt(g', draws[1..], r - 1);
    }
  }

  /** The same for the corrected search, on the same shuffled graph. */
  lemma {:induction false} RoundsCorrectedAt(g: Graph, draws: seq<seq<nat>>, r: nat)
    requires forall k :: 0 <= k < |draws| ==> |draws[k]| >= |g.vertices| - 1
    requires r < |draws|
    ensures RoundsCorrected(g, draws)[r] == GenerateFas(RoundGraph(g, draws, r))
    decreases r
  {
    var g' := Shuffled(g, draws[0]);
    assert RoundsCorrected(g, draws) == [GenerateFas(g')] + RoundsCorrected(g', draws[1..]);
    if r > 0 {
      assert RoundGraph(g, draws, r) == RoundGraph(g', draws[1..], r - 1);
      RoundsCorrectedAt(g', draws[1..], r - 1);
    }
  }

  /**
   * What the rounds as written report: in every round, edges of the graph
   * in their order, and among them only edges the corrected round reports
   * too; with at least as many edges as vertices the two rounds agree.
   */
  lemma {:induction false} RoundsWithin(g: Graph, draws: seq<seq<nat>>, r: nat)
    requires forall k :: 0 <= k < |draws| ==> |draws[k]| >= |g.vertices| - 1
    requires r < |draws|
    ensures Subsequence(Rounds(g, draws)[r], g.edges)
    ensures Subsequence(Rounds(g, draws)[r], RoundsCorrected(g, draws)[r])
    ensures |g.vertices| <= |g.edges| ==> Rounds(g, draws)[r] == RoundsCorrected(g, draws)[r]
  {
    RoundsAt(g, draws, r);
    RoundsCorrectedAt(g, draws, r);
    AsWrittenWithin(RoundGraph(g, draws, r));
  }

  /**
   * Whatever the draws, the set the corrected round `r` reports leaves no
   * cycle through two or more distinct vertices among the remaining edges.
   */
  lemma {:induction false} RoundsCorrectedBreakCycles(g: Graph, draws: seq<seq<nat>>, r: nat, path: seq<Edge>)
    requires Covers(g.vertices, g.edges)
    requires forall k :: 0 <= k < |draws| ==> |draws[k]| >= |g.vertices| - 1
    requires r < |draws|
    requires forall k :: 0 <= k < |path| ==> path[k] in g.edges && path[k] !in RoundsCorrected(g, draws)[r]
    requires forall k :: 0 <= k < |path| ==> path[k].start != path[k].end
    ensures !IsCycle(path)
    decreases r
  {
    var g' := Shuffled(g, draws[0]);
    CoversPermuted(g.vertices, g'.vertices, g.edges);
    assert RoundsCorrected(g, draws) == [GenerateFas(g')] + RoundsCorrected(g', draws[1..]);
    if r == 0 {
      FasBreaksCycles(g', path);
    } else {
      RoundsCorrectedBreakCycles(g', draws[1..], r - 1, path);
    }
  }

  /**
   * `search_smallest_fas` with the corrected `generate_fas`, on the graph
   * `init_graph` builds: in each of the ten rounds, the reported set breaks
   * every cycle through two or more distinct vertices.
   */
  lemma {:induction false} SearchCorrectedBreaksCycles(pairs: seq<Edge>, draws: seq<seq<nat>>, r: nat, path: seq<Edge>)
    requires |draws| == ROUNDS && r < ROUNDS
    requires forall k :: 0 <= k < |draws| ==> |draws[k]| >= |InitGraph(pairs).vertices| - 1
    requires forall k :: 0 <= k < |path| ==> path[k] in pairs && path[k] !in RoundsCorrected(InitGraph(pairs), draws)[r]
    requires forall k :: 0 <= k < |path| ==> path[k].start != path[k].end
    ensures !IsCycle(path)
  {
    var g := InitGraph(pairs);
    InitGraphWellFormed(pairs);
    WellFormedCovers(g);
    RoundsCorrectedBreakCycles(g, draws, r, path);
  }

  /**
   * `search_smallest_fas` as written, on the graph `init_graph` builds: each
   * of the ten reported sets lists edges of the graph in their order; when
   * the arguments name at least as many distinct edges as vertices, each
   * set breaks every cycle through two or more distinct vertices.
   */
  lemma {:induction false} SearchBreaksCycles(pairs: seq<Edge>, draws: seq<seq<nat>>, r: nat, path: seq<Edge>)
    requires |draws| == ROUNDS && r < ROUNDS
    requires forall k :: 0 <= k < |draws| ==> |draws[k]| >= |InitGraph(pairs).vertices| - 1
    requires forall k :: 0 <= k < |path| ==> path[k] in pairs && path[k] !in Rounds(InitGraph(pairs), draws)[r]
    requires forall k :: 0 <= k < |path| ==> path[k].start != path[k].end
    ensures Subsequence(Rounds(InitGraph(pairs), draws)[r], InitGraph(pairs).edges)
    ensures |InitGraph(pairs).vertices| <= |InitGraph(pairs).edges| ==> !IsCycle(path)
  {
    var g := InitGraph(pairs);
    RoundsWithin(g, draws, r);
    if |g.vertices| <= |g.edges| {
      SearchCorrectedBreaksCycles(pairs, draws, r, path);
    }
  }

  // ---------------------------------------------------------------------
  // The as-written scan misses cycles
  // ---------------------------------------------------------------------

  /** The arguments `0-1 1-0 2-3 4-5`. */
  const EXAMPLE_EDGES: seq<Edge> := [Edge(0, 1), Edge(1, 0), Edge(2, 3), Edge(4, 5)]

  /** `init_graph` with one argument more adds that edge last. */
  lemma InitGraphSnoc(pairs: seq<Edge>, e: Edge)
    ensures InitGraph(pairs + [e]) == AddEdge(InitGraph(pairs), e)
  {
    assert (pairs + [e])[..|pairs|] == pairs;
  }

  /** One argument more whose endpoints are both new: they are listed after the others. */
  lemma {:induction false} InitGraphFresh(pairs: seq<Edge>, e: Edge, g: Graph)
    requires InitGraph(pairs) == g
    requires e !in g.edges && e.start !in g.vertices && e.end !in g.vertices && e.start != e.end
    ensures InitGraph(pairs + [e]) == Graph(g.edges + [e], g.vertices + [e.start, e.end])
  {
    InitGraphSnoc(pairs, e);
    AddEdgeFresh(g, e);
  }

  /** One argument more between listed vertices: only the edge is added. */
  lemma {:induction false} InitGraphKnown(pairs: seq<Edge>, e: Edge, g: Graph)
    requires InitGraph(pairs) == g
    requires e !in g.edges && e.start in g.vertices && e.end in g.vertices
    ensures InitGraph(pairs + [e]) == Graph(g.edges + [e], g.vertices)
  {
    InitGraphSnoc(pairs, e);
    AddEdgeKnown(g, e);
  }

  /** The first two arguments: the edges 0-1 and 1-0 over the vertices 0 and 1. */
  lemma ExampleGraphHalf(es: seq<Edge>)
    requires es == [Edge(0, 1), Edge(1, 0)]
    ensures InitGraph(es) == Graph(es, [0, 1])
  {
    InitGraphFresh([], Edge(0, 1), EMPTY);
    assert [] + [Edge(0, 1)] == [Edge(0, 1)];
    InitGraphKnown([Edge(0, 1)], Edge(1, 0), Graph([Edge(0, 1)], [0, 1]));
    assert [Edge(0, 1)] + [Edge(1, 0)] == es;
  }

  /** The first three arguments add the vertices 2 and 3. */
  lemma ExampleGraphThree(es: seq<Edge>)
    requires es == [Edge(0, 1), Edge(1, 0), Edge(2, 3)]
    ensures InitGraph(es) == Graph(es, [0, 1, 2, 3])
  {
    var half := es[..2];
    ExampleGraphHalf(half);
    InitGraphFresh(half, Edge(2, 3), Graph(half, [0, 1]));
    assert half + [Edge(2, 3)] == es;
    assert [0, 1] + [2, 3] == [0, 1, 2, 3];
  }

  /** `init_graph` on them lists the four edges and the vertices 0 to 5 in order. */
  lemma ExampleGraph()
    ensures InitGraph(EXAMPLE_EDGES) == Graph(EXAMPLE_EDGES, [0, 1, 2, 3, 4, 5])
  {
    ExampleGraphFour(EXAMPLE_EDGES);
  }

  lemma ExampleGraphFour(es: seq<Edge>)
    requires es == [Edge(0, 1), Edge(1, 0), Edge(2, 3), Edge(4, 5)]
    ensures InitGraph(es) == Graph(es, [0, 1, 2, 3, 4, 5])
  {
    var three := es[..3];
    ExampleGraphThree(three);
    InitGraphFresh(three, Edge(4, 5), Graph(three, [0, 1, 2, 3]));
    assert three + [Edge(4, 5)] == es;
    assert [0, 1, 2, 3] + [4, 5] == [0, 1, 2, 3, 4, 5];
  }

  /** The draws 1, 0, 1, 0, 1 shuffle the vertices 0 to 5 into 2 3 4 5 0 1. */
  lemma ExampleShuffle()
    ensures Passes([0, 1, 2, 3, 4, 5], 0, [1, 0, 1, 0, 1]) == [2, 3, 4, 5, 0, 1]
  {
    var s, d := [0, 1, 2, 3, 4, 5], [1, 0, 1, 0, 1];
    assert Passes(s, 4, d) == [0, 5, 2, 3, 4, 1];
    assert Passes(s, 3, d) == [4, 5, 2, 3, 0, 1];
    assert Passes(s, 2, d) == [4, 3, 2, 5, 0, 1];
    assert Passes(s, 1, d) == [2, 3, 4, 5, 0, 1];
  }

  /**
   * In the order 2 3 4 5 0 1 the as-written scan looks at 2 3 4 5 only and
   * reports nothing; the corrected scan reports the edge 1-0.
   */
  lemma ExampleFas()
    ensures GenerateFasAsWritten(Graph(EXAMPLE_EDGES, [2, 3, 4, 5, 0, 1])) == []
    ensures GenerateFas(Graph(EXAMPLE_EDGES, [2, 3, 4, 5, 0, 1])) == [Edge(1, 0)]
  {
    var order := [2, 3, 4, 5, 0, 1];
    var p := EXAMPLE_EDGES;
    assert order[..4] == [2, 3, 4, 5] && order[..6] == order;
    assert Scan([2, 3, 4, 5], Edge(0, 1)) == -1 && Scan([2, 3, 4, 5], Edge(1, 0)) == -1;
    assert Scan(order, Edge(0, 1)) == 0 && Scan(order, Edge(1, 0)) == 1;
    assert p[..3][..2] == p[..2] && p[..2][..1] == p[..1] && p[..1][..0] == [];
    assert FasScan(order, 4, p[..2]) == [];
    assert FasScan(order, 4, p) == [];
    assert FasScan(order, 6, p[..2]) == [Edge(1, 0)];
    assert FasScan(order, 6, p) == [Edge(1, 0)];
  }

  /**
   * After a shuffle that `rand()` can produce, the as-written
   * `generate_fas` reports an empty set although the edges 0-1 and 1-0
   * form a cycle; the corrected scan reports 1-0, which breaks it.
   */
  lemma AsWrittenMissesCycle()
    ensures InitGraph(EXAMPLE_EDGES) == Graph(EXAMPLE_EDGES, [0, 1, 2, 3, 4, 5])
    ensures Passes([0, 1, 2, 3, 4, 5], 0, [1, 0, 1, 0, 1]) == [2, 3, 4, 5, 0, 1]
    ensures GenerateFasAsWritten(Graph(EXAMPLE_EDGES, [2, 3, 4, 5, 0, 1])) == []
    ensures IsCycle([Edge(0, 1), Edge(1, 0)]) && Edge(0, 1) in EXAMPLE_EDGES && Edge(1, 0) in EXAMPLE_EDGES
    ensures GenerateFas(Graph(EXAMPLE_EDGES, [2, 3, 4, 5, 0, 1])) == [Edge(1, 0)]
  {
    ExampleGraph();
    ExampleShuffle();
    ExampleFas();
  }

  /**
   * A one-round search on the example: the round as written reports the
   * empty set, the corrected round the edge 1-0.
   */
  lemma ExampleRound()
    ensures InitGraph(EXAMPLE_EDGES) == Graph(EXAMPLE_EDGES, [0, 1, 2, 3, 4, 5])
    ensures Rounds(InitGraph(EXAMPLE_EDGES), [[1, 0, 1, 0, 1]]) == [[]]
    ensures RoundsCorrected(InitGraph(EXAMPLE_EDGES), [[1, 0, 1, 0, 1]]) == [[Edge(1, 0)]]
  {
    ExampleGraph();
    ExampleShuffled();
    ExampleFas();
    OneRound(Graph(EXAMPLE_EDGES, [0, 1, 2, 3, 4, 5]), [1, 0, 1, 0, 1]);
  }

  /** The example graph after the shuffle of the draws 1, 0, 1, 0, 1. */
  lemma ExampleShuffled()
    ensures Shuffled(Graph(EXAMPLE_EDGES, [0, 1, 2, 3, 4, 5]), [1, 0, 1, 0, 1]) == Graph(EXAMPLE_EDGES, [2, 3, 4, 5, 0, 1])
  {
    ExampleShuffle();
  }

  /** A search of one round reports the scans of the graph that round's shuffle gives. */
  lemma OneRound(g: Graph, d: seq<nat>)
    requires |d| >= |g.vertices| - 1
    ensures Rounds(g, [d]) == [GenerateFasAsWritten(Shuffled(g, d))]
    ensures RoundsCorrected(g, [d]) == [GenerateFas(Shuffled(g, d))]
  {
    assert [d][1..] == [];
  }
}

=== FILE: graph.dfy ===
/**
 * The graph of the feedback-arc-set generator (`graph.c`): a list of
 * directed edges and a list of vertex numbers, both free of duplicates, the
 * Fisher-Yates `shuffle` of an integer list, and the order test `is_after`.
 */
module Graph {

  import Arith

  /** `edge_t`: an edge from vertex `start` to vertex `end`. */
  datatype Edge = Edge(start: int, end: int)

  /** `graph_t`: the edges in insertion order and the vertices in first-seen order. */
  datatype Graph = Graph(edges: seq<Edge>, vertices: seq<int>)

  /** The graph main starts from: both lists empty. */
  const EMPTY: Graph := Graph([], [])

  predicate NoDup<T(==)>(s: seq<T>)
  {
    forall i, j :: 0 <= i < j < |s| ==> s[i] != s[j]
  }

  /** A new entry appended to a list without duplicates leaves it without duplicates. */
  lemma {:induction false} NoDupAppend<T>(s: seq<T>, x: T)
    requires NoDup(s) && x !in s
    ensures NoDup(s + [x])
  {
    var r := s + [x];
    forall i, j | 0 <= i < j < |r| ensures r[i] != r[j] {
      assert r[i] == s[i];
      if j == |s| {
        assert s[i] in s;
      }
    }
  }

  /** The vertex numbers the edges of `es` touch. */
  function Endpoints(es: seq<Edge>): set<int>
  {
    if |es| == 0 then {}
    else Endpoints(es[..|es| - 1]) + {es[|es| - 1].start, es[|es| - 1].end}
  }

  /** A vertex is an endpoint exactly when some edge of the list touches it. */
  lemma {:induction false} EndpointsMember(es: seq<Edge>, v: int)
    ensures v in Endpoints(es) <==> exists e :: e in es && (v == e.start || v == e.end)
  {
    if |es| > 0 {
      var init, last := es[..|es| - 1], es[|es| - 1];
      EndpointsMember(init, v);
      assert es == init + [last];
      assert forall e :: e in es <==> e in init || e == last;
    }
  }

  /**
   * What `add_edge` keeps true of a graph: no edge and no vertex is listed
   * twice, and the vertices are exactly the endpoints of the edges.
   */
  ghost predicate WellFormed(g: Graph)
  {
    && NoDup(g.edges)
    && NoDup(g.vertices)
    && (forall v :: v in g.vertices <==> v in Endpoints(g.edges))
  }

  // ---------------------------------------------------------------------
  // add_vertex, add_edge
  // ---------------------------------------------------------------------

  /**
   * `add_vertex`: appends `v` unless it is already listed. The vertices
   * already listed keep their places, and afterwards `v` is among them.
   */
  function AddVertex(vs: seq<int>, v: int): (r: seq<int>)
    ensures v in r
    ensures |vs| <= |r| <= |vs| + 1
  {
    if v in vs then vs else vs + [v]
  }

  /**
   * `add_vertex` never lists a vertex twice and loses none: the listed
   * vertices keep their places, and `v` is added exactly when it is new.
   */
  lemma {:induction false} AddVertexKeepsSet(vs: seq<int>, v: int)
    ensures NoDup(vs) ==> NoDup(AddVertex(vs, v))
    ensures forall u :: u in AddVertex(vs, v) <==> u in vs || u == v
    ensures AddVertex(vs, v)[..|vs|] == vs
    ensures |AddVertex(vs, v)| == if v in vs then |vs| else |vs| + 1
  {
    assert (vs + [v])[..|vs|] == vs;
  }

  /**
   * `add_edge`: an edge already present (same start and end) changes
   * nothing; otherwise it is appended and both endpoints are added as
   * vertices. The allocation of the edge record is taken to succeed.
   */
  function AddEdge(g: Graph, e: Edge): (r: Graph)
    ensures e in r.edges
    ensures e in g.edges ==> r == g
    ensures e !in g.edges ==> r.edges == g.edges + [e]
    ensures |g.edges| <= |r.edges| <= |g.edges| + 1
    ensures |g.vertices| <= |r.vertices| <= |g.vertices| + 2
  {
    if e in g.edges then g
    else Graph(g.edges + [e], AddVertex(AddVertex(g.vertices, e.start), e.end))
  }

  /** A new edge between two new vertices lists both, start first. */
  lemma {:induction false} AddEdgeFresh(g: Graph, e: Edge)
    requires e !in g.edges && e.start !in g.vertices && e.end !in g.vertices && e.start != e.end
    ensures AddEdge(g, e) == Graph(g.edges + [e], g.vertices + [e.start, e.end])
  {
    assert AddVertex(g.vertices, e.start) == g.vertices + [e.start];
    assert e.end !in g.vertices + [e.start];
    assert g.vertices + [e.start] + [e.end] == g.vertices + [e.start, e.end];
  }

  /** A new edge between listed vertices adds no vertex. */
  lemma {:induction false} AddEdgeKnown(g: Graph, e: Edge)
    requires e !in g.edges && e.start in g.vertices && e.end in g.vertices
    ensures AddEdge(g, e) == Graph(g.edges + [e], g.vertices)
  {
  }

  /** `add_edge` only appends: the edges and vertices listed before keep their places. */
  lemma {:induction false} AddEdgeAppends(g: Graph, e: Edge)
    ensures AddEdge(g, e).edges[..|g.edges|] == g.edges
    ensures AddEdge(g, e).vertices[..|g.vertices|] == g.vertices
  {
    if e !in g.edges {
      var w := AddVertex(g.vertices, e.start);
      AddVertexKeepsSet(g.vertices, e.start);
      AddVertexKeepsSet(w, e.end);
      assert (g.edges + [e])[..|g.edges|] == g.edges;
      assert AddVertex(w, e.end)[..|g.vertices|] == w[..|g.vertices|];
    }
  }

  /** After `add_edge`, the endpoints are those of before together with those of `e`. */
  lemma {:induction false} AddEdgeEndpoints(g: Graph, e: Edge)
    ensures Endpoints(AddEdge(g, e).edges) == Endpoints(g.edges) + {e.start, e.end}
  {
    if e in g.edges {
      EndpointsMember(g.edges, e.start);
      EndpointsMember(g.edges, e.end);
    } else {
      EndpointsAppend(g.edges, e);
    }
  }

  /** The endpoints of a list with one more edge. */
  lemma {:induction false} EndpointsAppend(es: seq<Edge>, e: Edge)
    ensures Endpoints(es + [e]) == Endpoints(es) + {e.start, e.end}
  {
    assert (es + [e])[..|es|] == es;
  }

  /**
   * `add_edge` keeps the graph well formed, adds at most one edge and at
   * most two vertices, and afterwards both endpoints of `e` are vertices.
   */
  lemma {:induction false} AddEdgeWellFormed(g: Graph, e: Edge)
    requires WellFormed(g)
    ensures WellFormed(AddEdge(g, e))
    ensures e in AddEdge(g, e).edges
    ensures e.start in AddEdge(g, e).vertices && e.end in AddEdge(g, e).vertices
    ensures |g.edges| <= |AddEdge(g, e).edges| <= |g.edges| + 1
    ensures |g.vertices| <= |AddEdge(g, e).vertices| <= |g.vertices| + 2
  {
    if e in g.edges {
      EndpointsMember(g.edges, e.start);
      EndpointsMember(g.edges, e.end);
    } else {
      var r := AddEdge(g, e);
      EndpointsAppend(g.edges, e);
      AddVertexKeepsSet(g.vertices, e.start);
      AddVertexKeepsSet(AddVertex(g.vertices, e.start), e.end);
      NoDupAppend(g.edges, e);
    }
  }

  // ---------------------------------------------------------------------
  // shuffle
  // ---------------------------------------------------------------------

  /** `s` with the entries at `i` and `j` exchanged. */
  function Swap(s: seq<int>, i: nat, j: nat): (r: seq<int>)
    requires i < |s| && j < |s|
    ensures |r| == |s|
  {
    s[i := s[j]][j := s[i]]
  }

  /** Exchanging two entries keeps every entry, with its multiplicity. */
  lemma SwapPermutes(s: seq<int>, i: nat, j: nat)
    requires i < |s| && j < |s|
    ensures multiset(Swap(s, i, j)) == multiset(s)
  {
  }

  /**
   * `rand() % (i + 1)` for a draw `d`: the index the pass at `i` swaps
   * with. Written as repeated subtraction; `ChoiceIsMod` shows it is the
   * remainder.
   */
  function Choice(d: nat, i: nat): (j: nat)
    ensures j <= i
    decreases d
  {
    if d <= i then d else Choice(d - (i + 1), i)
  }

  lemma {:induction false} ChoiceIsMod(d: nat, i: nat)
    ensures Choice(d, i) == d % (i + 1)
    decreases d
  {
    if d > i {
      ChoiceIsMod(d - (i + 1), i);
      var m := i + 1;
      Arith.ModUnique(d, m, (d - m) / m + 1, (d - m) % m);
    }
  }

  /**
   * The list after the Fisher-Yates passes of `shuffle` at indices
   * `|s| - 1` down to `i + 1`: the pass at `k` swaps `s[k]` with
   * `s[Choice(d, k)]`, where `d` is the draw of `rand()` for that pass,
   * `rands[|s| - 1 - k]`. Every pass only permutes the list.
   */
  function Passes(s: seq<int>, i: int, rands: seq<nat>): (r: seq<int>)
    requires 0 <= i && |rands| >= |s| - 1
    ensures |r| == |s|
    decreases |s| - i
  {
    if i >= |s| - 1 then s
    else Swap(Passes(s, i + 1, rands), i + 1, Choice(rands[|s| - 2 - i], i + 1))
  }

  /** One more pass: the pass at `i` applied to the passes above it. */
  lemma PassesStep(s: seq<int>, i: int, rands: seq<nat>)
    requires 0 < i < |s| && |rands| >= |s| - 1
    ensures Passes(s, i - 1, rands) == Swap(Passes(s, i, rands), i, Choice(rands[|s| - 1 - i], i))
  {
  }

  /** Whatever the draws, the passes keep every entry of the list, with its multiplicity. */
  lemma {:induction false} PassesPermute(s: seq<int>, i: int, rands: seq<nat>)
    requires 0 <= i && |rands| >= |s| - 1
    ensures multiset(Passes(s, i, rands)) == multiset(s)
    decreases |s| - i
  {
    if i < |s| - 1 {
      var t, j := Passes(s, i + 1, rands), Choice(rands[|s| - 2 - i], i + 1);
      PassesPermute(s, i + 1, rands);
      SwapPermutes(t, i + 1, j);
      assert Passes(s, i, rands) == Swap(t, i + 1, j);
    } else {
      assert Passes(s, i, rands) == s;
    }
  }

  /**
   * `shuffle(list, size)`: the Fisher-Yates loop from the last index down
   * to 1, drawing one choice per pass from `rands`. The result is a
   * permutation of the list, and lists of at most one entry come back
   * unchanged.
   */
  method Shuffle(list: seq<int>, rands: seq<nat>) returns (r: seq<int>)
    requires |rands| >= |list| - 1
    ensures r == Passes(list, 0, rands)
    ensures |r| == |list| && multiset(r) == multiset(list)
    ensures |list| <= 1 ==> r == list
  {
    r := list;
    var i := |list| - 1;
    while i > 0
      invariant -1 <= i < |list| || (|list| == 0 && i == -1)
      invariant i < 0 ==> r == list && |list| == 0
      invariant 0 <= i ==> r == Passes(list, i, rands)
      decreases i
    {
      var j := Choice(rands[|list| - 1 - i], i);
      PassesStep(list, i, rands);
      r := Swap(r, i, j);
      i := i - 1;
    }
    PassesPermute(list, 0, rands);
  }

  /**
   * `shuffle(list, size)` on the array itself, as the C code swaps in
   * place through a temporary: afterwards the array holds the passes over
   * its former contents, a permutation of them.
   */
  method ShuffleInPlace(list: array<int>, rands: seq<nat>)
    requires |rands| >= list.Length - 1
    modifies list
    ensures list[..] == Passes(old(list[..]), 0, rands)
    ensures multiset(list[..]) == multiset(old(list[..]))
  {
    ghost var s := list[..];
    var i := list.Length - 1;
    while i > 0
      invariant 0 <= i < list.Length || (list.Length == 0 && i == -1)
      invariant i < 0 ==> list[..] == s
      invariant 0 <= i ==> list[..] == Passes(s, i, rands)
      decreases i
    {
      var j := Choice(rands[list.Length - 1 - i], i);
      PassesStep(s, i, rands);
      ghost var before := list[..];
      var temp := list[i];
      list[i] := list[j];
      list[j] := temp;
      assert list[..] == Swap(before, i, j);
      i := i - 1;
    }
    assert i < 0 ==> Passes(s, 0, rands) == s;
    PassesPermute(s, 0, rands);
  }

  // ---------------------------------------------------------------------
  // is_after
  // ---------------------------------------------------------------------

  /** Index of the first occurrence of `x` in `s`, or `|s|` when there is none. */
  function Position(s: seq<int>, x: int): (k: nat)
    ensures k <= |s|
    ensures k < |s| <==> x in s
    ensures k < |s| ==> s[k] == x
    ensures forall i :: 0 <= i < k ==> s[i] != x
  {
    if |s| == 0 then 0 else if s[0] == x then 0 else 1 + Position(s[1..], x)
  }

  /** The loop of `is_after` over `s`: which endpoint of `e` comes first. */
  function Scan(s: seq<int>, e: Edge): (r: int)
    ensures -1 <= r <= 1
  {
    if |s| == 0 then -1
    else if s[0] == e.start then 0
    else if s[0] == e.end then 1
    else Scan(s[1..], e)
  }

  /**
   * `is_after(order, count, e)`: the scan over the first `count` entries
   * of `order`.
   */
  function IsAfter(order: seq<int>, count: int, e: Edge): (r: int)
    requires 0 <= count <= |order|
    ensures -1 <= r <= 1
  {
    Scan(order[..count], e)
  }

  /**
   * The scan stops at the first endpoint it meets: once an endpoint of `e`
   * occurs in `order`, whatever follows `order` is never looked at.
   */
  lemma {:induction false} ScanStopsInside(order: seq<int>, beyond: seq<int>, e: Edge)
    requires e.start in order || e.end in order
    ensures Scan(order + beyond, e) == Scan(order, e)
  {
    if order[0] != e.start && order[0] != e.end {
      assert (order + beyond)[1..] == order[1..] + beyond;
      ScanStopsInside(order[1..], beyond, e);
    }
  }

  /**
   * Handed more entries than `order` holds, `is_after` still answers as if
   * given at most `order`, provided an endpoint of `e` occurs in `order`:
   * whatever follows `order` in memory is never read.
   */
  lemma {:induction false} IsAfterBeyond(order: seq<int>, beyond: seq<int>, count: int, e: Edge)
    requires 0 <= count <= |order| + |beyond|
    requires e.start in order || e.end in order
    ensures IsAfter(order + beyond, count, e) == IsAfter(order, Arith.Min(count, |order|), e)
  {
    if count <= |order| {
      assert (order + beyond)[..count] == order[..count];
    } else {
      assert (order + beyond)[..count] == order + beyond[..count - |order|];
      ScanStopsInside(order, beyond[..count - |order|], e);
      assert order[..|order|] == order;
    }
  }

  /** Once `is_after` has found an endpoint, looking at more entries changes nothing. */
  lemma {:induction false} IsAfterLonger(order: seq<int>, c1: int, c2: int, e: Edge)
    requires 0 <= c1 <= c2 <= |order|
    requires IsAfter(order, c1, e) != -1
    ensures IsAfter(order, c2, e) == IsAfter(order, c1, e)
  {
    ScanPositions(order[..c1], e);
    assert order[..c2] == order[..c1] + order[c1..c2];
    ScanStopsInside(order[..c1], order[c1..c2], e);
  }

  /**
   * `is_after` reports 0 when `e.start` comes first among the first `count`
   * entries (also when `e` is a self-loop), 1 when `e.end` comes first, and
   * -1 when neither occurs.
   */
  lemma {:induction false} IsAfterPositions(order: seq<int>, count: int, e: Edge)
    requires 0 <= count <= |order|
    ensures IsAfter(order, count, e) == -1 <==> e.start !in order[..count] && e.end !in order[..count]
    ensures IsAfter(order, count, e) == 0 <==> (e.start in order[..count]
                         && Position(order[..count], e.start) <= Position(order[..count], e.end))
    ensures IsAfter(order, count, e) == 1 <==> (e.end in order[..count]
                         && Position(order[..count], e.end) < Position(order[..count], e.start))
  {
    ScanPositions(order[..count], e);
  }

  /** What `Scan` returns, in terms of the first positions of the two endpoints. */
  lemma {:induction false} ScanPositions(s: seq<int>, e: Edge)
    ensures Scan(s, e) == -1 <==> e.start !in s && e.end !in s
    ensures Scan(s, e) == 0 <==> e.start in s && Position(s, e.start) <= Position(s, e.end)
    ensures Scan(s, e) == 1 <==> e.end in s && Position(s, e.end) < Position(s, e.start)
  {
    if |s| > 0 && s[0] != e.start && s[0] != e.end {
      ScanPositions(s[1..], e);
      assert forall x :: x in s <==> x == s[0] || x in s[1..];
    }
  }
}

=== FILE: hex.dfy ===
/**
 * The string arithmetic of the hexadecimal multiplier (`hex.c`): numbers
 * are digit strings, most significant digit first.
 */
module Hex {
  import opened Arith
  import opened Results
  import opened CLib
  import opened HexDigits
  import IntMulMisc

  // ---------------------------------------------------------------------
  // half_str
  // ---------------------------------------------------------------------

  /**
   * `half_str(dst, src, half, half_length)`: `strncpy` of at most
   * `half_length` characters, starting at `half_length` when `half` is 1 and
   * at the beginning otherwise. The start must lie inside `src`.
   */
  function HalfStr(src: string, half: int, halfLength: nat): (r: string)
    requires half == 1 ==> halfLength <= |src|
    ensures |r| <= halfLength
    ensures var start := if half == 1 then halfLength else 0;
      && start + |r| <= |src|
      && (forall i :: 0 <= i < |r| ==> r[i] == src[start + i])
      && (|r| == halfLength || start + |r| == |src|)
  {
    var start := if half == 1 then halfLength else 0;
    src[start..Min(start + halfLength, |src|)]
  }

  /** For a source of even length the two halves are exact and rebuild the source. */
  lemma {:induction false} HalvesRebuild(src: string, halfLength: nat)
    requires |src| == 2 * halfLength
    ensures |HalfStr(src, 0, halfLength)| == halfLength == |HalfStr(src, 1, halfLength)|
    ensures HalfStr(src, 0, halfLength) + HalfStr(src, 1, halfLength) == src
  {
    var h, l := HalfStr(src, 0, halfLength), HalfStr(src, 1, halfLength);
    assert h + l == src by {
      assert h == src[..halfLength];
      assert l == src[halfLength..];
    }
  }

  // ---------------------------------------------------------------------
  // fill_zeroes
  // ---------------------------------------------------------------------

  predicate IsPow2(n: nat)
  {
    n == 1 || (n >= 2 && n % 2 == 0 && IsPow2(n / 2))
  }

  /** The doubling loop of `fill_zeroes`, continued from `p`. */
  function Doubling(p: nat, minLen: int): (r: nat)
    requires IsPow2(p)
    ensures IsPow2(r) && r >= p && r >= minLen
    ensures r == p || r / 2 < minLen
    decreases minLen - p
  {
    if p >= minLen then p else Doubling(2 * p, minLen)
  }

  /** The length `fill_zeroes` aims at when asked for a power of two: doubling from 1 until `minLen` is reached. */
  function PowTarget(minLen: int): nat
  {
    Doubling(1, minLen)
  }

  lemma {:induction false} Pow2Gap(a: nat, b: nat)
    requires IsPow2(a) && IsPow2(b) && a < b
    ensures 2 * a <= b
    decreases b
  {
    if a >= 2 {
      Pow2Gap(a / 2, b / 2);
    }
  }

  /** The target is the least power of two that is at least `minLen`. */
  lemma {:induction false} PowTargetLeast(minLen: int, q: nat)
    requires IsPow2(q) && q >= minLen
    ensures IsPow2(PowTarget(minLen)) && PowTarget(minLen) >= minLen
    ensures PowTarget(minLen) <= q
  {
    var r := PowTarget(minLen);
    if r > q {
      assert r != 1;
      Pow2Gap(q, r);
    }
  }

  /** A power of two is its own target; any target is below twice the requested length. */
  lemma {:induction false} PowTargetOfPow2(n: nat)
    requires n >= 1
    ensures PowTarget(n) < 2 * n
    ensures IsPow2(n) ==> PowTarget(n) == n
  {
    if IsPow2(n) {
      PowTargetLeast(n, n);
    }
  }

  /** Length `fill_zeroes(str, min_len, pow_of_two)` pads to. */
  function FillTarget(minLen: int, powOfTwo: bool): int
  {
    if powOfTwo then PowTarget(minLen) else minLen
  }

  /**
   * `fill_zeroes(str, min_len, pow_of_two)`: prepends '0' characters until
   * the target length is reached; a string already that long is returned
   * unchanged.
   */
  function FillZeroes(s: string, minLen: int, powOfTwo: bool): (r: string)
    ensures |r| == Max(|s|, FillTarget(minLen, powOfTwo))
    ensures r[|r| - |s|..] == s
    ensures forall i :: 0 <= i < |r| - |s| ==> r[i] == '0'
  {
    var newLen := if powOfTwo then PowTarget(minLen) else minLen;
    var diff := newLen - |s|;
    if diff <= 0 then s else Zeros(diff) + s
  }

  /** Padding keeps a numeral a numeral, and keeps its value. */
  lemma {:induction false} FillZeroesValue(s: string, minLen: int, powOfTwo: bool)
    requires AllHex(s)
    ensures AllHex(FillZeroes(s, minLen, powOfTwo))
    ensures HexVal(FillZeroes(s, minLen, powOfTwo)) == HexVal(s)
  {
    var r := FillZeroes(s, minLen, powOfTwo);
    assert r == Zeros(|r| - |s|) + s;
    LeadingZeros(|r| - |s|, s);
  }

  /** Padding a string of decimal digits leaves only decimal digits. */
  lemma {:induction false} FillZeroesDigits(s: string, minLen: int, powOfTwo: bool)
    requires AllDigits(s)
    ensures AllDigits(FillZeroes(s, minLen, powOfTwo))
  {
    var r := FillZeroes(s, minLen, powOfTwo);
    forall i | 0 <= i < |r|
      ensures IsDigit(r[i])
    {
      if i >= |r| - |s| {
        assert r[i] == r[|r| - |s|..][i - (|r| - |s|)];
      }
    }
  }

  /** Lower-case digits stay lower-case under padding. */
  lemma {:induction false} FillZeroesLower(s: string, minLen: int, powOfTwo: bool)
    requires AllLowerHex(s)
    ensures AllLowerHex(FillZeroes(s, minLen, powOfTwo))
  {
    var r := FillZeroes(s, minLen, powOfTwo);
    forall i | 0 <= i < |r|
      ensures IsLowerHexDigit(r[i])
    {
      if i >= |r| - |s| {
        assert r[i] == r[|r| - |s|..][i - (|r| - |s|)];
      }
    }
  }

  // ---------------------------------------------------------------------
  // shift_left
  // ---------------------------------------------------------------------

  /** `shift_left(str, n)`: appends `n` zero digits. */
  function ShiftLeft(s: string, n: nat): (r: string)
    ensures |r| == |s| + n
    ensures r[..|s|] == s
    ensures forall i :: |s| <= i < |r| ==> r[i] == '0'
  {
    s + Zeros(n)
  }

  /** Shifting by `n` digits multiplies the value by 16^n. */
  lemma {:induction false} ShiftLeftValue(s: string, n: nat)
    requires AllHex(s)
    ensures AllHex(ShiftLeft(s, n))
    ensures HexVal(ShiftLeft(s, n)) == HexVal(s) * Pow(16, n)
  {
    TrailingZeros(s, n);
  }

  // ---------------------------------------------------------------------
  // add
  // ---------------------------------------------------------------------

  /** The padding `add` applies to its two operands (in place in the C code). */
  function PadOperands(x: string, y: string): (r: (string, string))
    ensures |r.0| == |r.1| == Max(|x|, |y|)
    ensures r.0[|r.0| - |x|..] == x && r.1[|r.1| - |y|..] == y
    ensures AllHex(x) ==> AllHex(r.0) && HexVal(r.0) == HexVal(x)
    ensures AllHex(y) ==> AllHex(r.1) && HexVal(r.1) == HexVal(y)
  {
    var len := Max(|x|, |y|);
    assert AllHex(x) ==> AllHex(FillZeroes(x, len, false)) && HexVal(FillZeroes(x, len, false)) == HexVal(x) by {
      if AllHex(x) { FillZeroesValue(x, len, false); }
    }
    assert AllHex(y) ==> AllHex(FillZeroes(y, len, false)) && HexVal(FillZeroes(y, len, false)) == HexVal(y) by {
      if AllHex(y) { FillZeroesValue(y, len, false); }
    }
    (FillZeroes(x, len, false), FillZeroes(y, len, false))
  }

  lemma {:induction false} AddStep(hx: int, hy: int, dx: int, dy: int, carry: int, d: int, c: int, p: int, hs: int)
    requires dx + dy + carry == d + 16 * c
    ensures (hx + hy + c) * (16 * p) + (d * p + hs) == ((hx * 16 + dx) + (hy * 16 + dy) + carry) * p + hs
  {
  }

  /** One column of `add`: the digit written and the carry passed on. */
  function Column(dx: nat, dy: nat, carry: nat): (r: (nat, nat))
    requires dx < 16 && dy < 16 && carry <= 1
    ensures r.0 < 16 && r.1 <= 1
    ensures dx + dy + carry == r.0 + 16 * r.1
  {
    var s := dx + dy + carry;
    if s > 15 then (s - 16, 1) else (s, 0)
  }

  /**
   * The digit loop of `add`, from position `i - 1` down to 0: `sum` holds the
   * digits already written (positions `i` onwards) and `carry` the pending
   * overflow. A character that is not a hexadecimal digit makes the digit
   * conversion, and with it `add`, fail.
   */
  function AddDigits(x: string, y: string, i: nat, carry: nat, sum: string): (r: Result<string>)
    requires |x| == |y| && i <= |x| && |sum| == |x| - i && carry <= 1
    requires AllLowerHex(sum)
    ensures r.Ok? <==> AllHex(x[..i]) && AllHex(y[..i])
    ensures r.Ok? ==> AllLowerHex(r.value)
    ensures r.Ok? ==> |r.value| == |x| || (|r.value| == |x| + 1 && r.value[0] == '1')
    decreases i
  {
    if i == 0 then
      Ok(if carry == 1 then "1" + sum else sum)
    else if !IsHexDigit(x[i - 1]) || !IsHexDigit(y[i - 1]) then
      Err
    else
      var col := Column(DigitVal(x[i - 1]), DigitVal(y[i - 1]), carry);
      assert x[..i][..i - 1] == x[..i - 1] && y[..i][..i - 1] == y[..i - 1];
      AddDigits(x, y, i - 1, col.1, [LowerDigit(col.0)] + sum)
  }

  lemma {:induction false} AllLowerIsHex(s: string)
    requires AllLowerHex(s)
    ensures AllHex(s)
  {
  }

  /**
   * The loop invariant of `add`: the value still to be produced from the
   * prefixes and the carry, shifted past the digits written, plus those digits.
   */
  lemma {:induction false} AddDigitsValue(x: string, y: string, i: nat, carry: nat, sum: string)
    requires |x| == |y| && i <= |x| && |sum| == |x| - i && carry <= 1
    requires AllLowerHex(sum) && AllHex(x[..i]) && AllHex(y[..i])
    ensures AddDigits(x, y, i, carry, sum).Ok?
    ensures AllHex(AddDigits(x, y, i, carry, sum).value) && AllHex(sum)
    ensures HexVal(AddDigits(x, y, i, carry, sum).value) ==
      (HexVal(x[..i]) + HexVal(y[..i]) + carry) * Pow(16, |sum|) + HexVal(sum)
    decreases i
  {
    var r := AddDigits(x, y, i, carry, sum);
    if i == 0 {
      AddDigitsDone(x, y, carry, sum);
    } else {
      PrefixHex(x, i);
      PrefixHex(y, i);
      var col := Column(DigitVal(x[i - 1]), DigitVal(y[i - 1]), carry);
      var sum' := [LowerDigit(col.0)] + sum;
      AddDigitsUnfold(x, y, i, carry, sum);
      AllLowerIsHex(sum');
      AddDigitsValue(x, y, i - 1, col.1, sum');
      AddDigitsStep(x, y, i, carry, sum, sum', HexVal(r.value));
      AllLowerIsHex(r.value);
    }
  }

  /** One digit of `add`: writing the column's digit and passing its carry on keeps the invariant. */
  lemma {:induction false} AddDigitsStep(x: string, y: string, i: nat, carry: nat, sum: string, sum': string, v: int)
    requires |x| == |y| && 0 < i <= |x| && |sum| == |x| - i && carry <= 1
    requires AllLowerHex(sum) && AllHex(x[..i]) && AllHex(y[..i])
    requires AllHex(x[..i - 1]) && AllHex(y[..i - 1]) && IsHexDigit(x[i - 1]) && IsHexDigit(y[i - 1])
    requires sum' == [LowerDigit(Column(DigitVal(x[i - 1]), DigitVal(y[i - 1]), carry).0)] + sum && AllHex(sum')
    requires v == (HexVal(x[..i - 1]) + HexVal(y[..i - 1]) + Column(DigitVal(x[i - 1]), DigitVal(y[i - 1]), carry).1)
                  * Pow(16, |sum'|) + HexVal(sum')
    ensures v == (HexVal(x[..i]) + HexVal(y[..i]) + carry) * Pow(16, |sum|) + HexVal(sum)
  {
    var dx, dy := DigitVal(x[i - 1]), DigitVal(y[i - 1]);
    var col := Column(dx, dy, carry);
    PrefixStep(x, i);
    PrefixStep(y, i);
    PrependDigit(col.0, sum);
    var hx, hy, p, hs := HexVal(x[..i - 1]), HexVal(y[..i - 1]), Pow(16, |sum|), HexVal(sum);
    assert Pow(16, |sum'|) == 16 * p;
    AddStep(hx, hy, dx, dy, carry, col.0, col.1, p, hs);
  }

  /** One step of the digit loop of `add` on two digits. */
  lemma {:induction false} AddDigitsUnfold(x: string, y: string, i: nat, carry: nat, sum: string)
    requires |x| == |y| && 0 < i <= |x| && |sum| == |x| - i && carry <= 1
    requires AllLowerHex(sum) && IsHexDigit(x[i - 1]) && IsHexDigit(y[i - 1])
    ensures var col := Column(DigitVal(x[i - 1]), DigitVal(y[i - 1]), carry);
            && AllLowerHex([LowerDigit(col.0)] + sum)
            && AddDigits(x, y, i, carry, sum) == AddDigits(x, y, i - 1, col.1, [LowerDigit(col.0)] + sum)
  {
    PrependDigit(Column(DigitVal(x[i - 1]), DigitVal(y[i - 1]), carry).0, sum);
  }

  lemma {:induction false} AddDigitsDone(x: string, y: string, carry: nat, sum: string)
    requires |x| == |y| == |sum| && carry <= 1 && AllLowerHex(sum)
    ensures AddDigits(x, y, 0, carry, sum).Ok?
    ensures AllHex(AddDigits(x, y, 0, carry, sum).value) && AllHex(sum)
    ensures HexVal(AddDigits(x, y, 0, carry, sum).value) == carry * Pow(16, |sum|) + HexVal(sum)
  {
    AllLowerIsHex(sum);
    var r := AddDigits(x, y, 0, carry, sum);
    if carry == 1 {
      PrependDigit(1, sum);
      assert r.value == [LowerDigit(1)] + sum;
    } else {
      assert r.value == sum;
    }
  }

  lemma {:induction false} PrefixHex(x: string, i: nat)
    requires 0 < i <= |x| && AllHex(x[..i])
    ensures AllHex(x[..i - 1]) && IsHexDigit(x[i - 1])
  {
    assert x[..i][..i - 1] == x[..i - 1];
    assert x[..i][i - 1] == x[i - 1];
  }

  lemma {:induction false} PrefixStep(x: string, i: nat)
    requires 0 < i <= |x| && AllHex(x[..i])
    ensures AllHex(x[..i - 1])
    ensures HexVal(x[..i]) == HexVal(x[..i - 1]) * 16 + DigitVal(x[i - 1])
  {
    assert x[..i][..i - 1] == x[..i - 1];
  }

  lemma {:induction false} PrependDigit(d: nat, sum: string)
    requires d < 16 && AllLowerHex(sum)
    ensures AllLowerHex([LowerDigit(d)] + sum) && AllHex([LowerDigit(d)] + sum) && AllHex(sum)
    ensures HexVal([LowerDigit(d)] + sum) == d * Pow(16, |sum|) + HexVal(sum)
  {
    AllLowerIsHex(sum);
    HexValConcat([LowerDigit(d)], sum);
    assert [LowerDigit(d)][..0] == [];
  }

  /**
   * `add(res, x, y)`: pads both operands to the longer length, adds digit by
   * digit from the right, and writes a leading '1' when a carry is left.
   */
  function Add(x: string, y: string): (r: Result<string>)
    ensures r.Ok? <==> AllHex(x) && AllHex(y)
    ensures r.Ok? ==> AllLowerHex(r.value) && AllHex(r.value)
    ensures r.Ok? ==> (HexVal(r.value) == HexVal(x) + HexVal(y))
    ensures r.Ok? ==> |r.value| == Max(|x|, |y|) || (|r.value| == Max(|x|, |y|) + 1 && r.value[0] == '1')
  {
    var (px, py) := PadOperands(x, y);
    PaddedHex(x, y);
    if AllHex(x) && AllHex(y) then
      AddDigitsAll(px, py);
      AddDigits(px, py, |px|, 0, [])
    else
      AddDigits(px, py, |px|, 0, [])
  }

  /** The padded operands are numerals exactly when the operands are. */
  lemma {:induction false} PaddedHex(x: string, y: string)
    ensures var (px, py) := PadOperands(x, y);
            && px[..|px|] == px && py[..|py|] == py
            && (AllHex(px) && AllHex(py) <==> AllHex(x) && AllHex(y))
  {
    var r := PadOperands(x, y);
    SuffixHex(r.0, x);
    SuffixHex(r.1, y);
  }

  /**
   * The digits at the end of a numeral form a numeral too, so a padding of
   * `x` is a numeral exactly when `x` is one.
   */
  lemma {:induction false} SuffixHex(p: string, x: string)
    requires |x| <= |p| && p[|p| - |x|..] == x && (AllHex(x) ==> AllHex(p))
    ensures p[..|p|] == p
    ensures AllHex(p) <==> AllHex(x)
  {
    assert forall i :: 0 <= i < |x| ==> x[i] == p[|p| - |x| + i];
  }

  /** The whole digit loop of `add` on two padded numerals adds their values. */
  lemma {:induction false} AddDigitsAll(px: string, py: string)
    requires |px| == |py| && AllHex(px) && AllHex(py)
    ensures AddDigits(px, py, |px|, 0, []).Ok?
    ensures AllHex(AddDigits(px, py, |px|, 0, []).value)
    ensures HexVal(AddDigits(px, py, |px|, 0, []).value) == HexVal(px) + HexVal(py)
  {
    assert px[..|px|] == px && py[..|py|] == py;
    AddDigitsValue(px, py, |px|, 0, []);
  }

  // ---------------------------------------------------------------------
  // multiply
  // ---------------------------------------------------------------------

  /**
   * `multiply(dst, x, y)` as written: both operands are read with the
   * decimal `parse_int`, their product is printed with "%x" and padded to
   * twice the length of `x`: the result is exactly as long as the longer of
   * the two.
   */
  function Multiply(x: string, y: string): (r: Result<string>)
    ensures r.Ok? <==> IntMulMisc.Accepted(x) && IntMulMisc.Accepted(y)
    ensures r.Ok? ==> AllLowerHex(r.value) && AllHex(r.value) && |r.value| >= 2 * |x|
    ensures r.Ok? ==> |r.value| == Max(2 * |x|, |ToHex(HexVal(r.value))|)
    ensures r.Ok? ==> (HexVal(r.value) ==
      IntMulMisc.ParseInt(Some(x)).value * IntMulMisc.ParseInt(Some(y)).value)
  {
    var xv :- IntMulMisc.ParseInt(Some(x));
    var yv :- IntMulMisc.ParseInt(Some(y));
    var prod := xv * yv;
    var s := ToHex(prod);
    FillZeroesValue(s, 2 * |x|, false);
    FillZeroesLower(s, 2 * |x|, false);
    Ok(FillZeroes(s, 2 * |x|, false))
  }

  /**
   * The decimal parse of a single hexadecimal digit: it succeeds exactly
   * for 0-9, and then yields the digit's value.
   */
  lemma {:induction false} ParseDigit(x: string)
    requires |x| == 1 && AllHex(x)
    ensures IntMulMisc.Accepted(x) <==> IsDigit(x[0])
    ensures IsDigit(x[0]) ==> IntMulMisc.ParseInt(Some(x)) == Ok(HexVal(x))
  {
    assert SpaceRun(x) == 0;
    assert x[0..] == x && x[..0] == [];
    if IsDigit(x[0]) {
      assert DecVal(x) == DecVal(x[..0]) * 10 + (x[0] as int - '0' as int);
    }
  }

  /**
   * `multiply` as written, on the single digits its caller passes: it
   * succeeds exactly when both are decimal digits, and then prints their
   * product; every digit a-f or A-F makes it fail.
   */
  lemma {:induction false} MultiplySingleDigits(x: string, y: string)
    requires |x| == 1 && |y| == 1 && AllHex(x) && AllHex(y)
    ensures Multiply(x, y).Ok? <==> IsDigit(x[0]) && IsDigit(y[0])
    ensures Multiply(x, y).Ok? ==> HexVal(Multiply(x, y).value) == HexVal(x) * HexVal(y)
  {
    ParseDigit(x);
    ParseDigit(y);
  }

  /** Single hexadecimal letters are refused by the decimal parse, though they denote numbers. */
  lemma {:induction false} MultiplyRejectsHexLetters()
    ensures AllHex("a") && AllHex("b") && HexVal("a") * HexVal("b") == 110
    ensures Multiply("a", "b") == Err
  {
    assert HexVal("a") == 10 by {
      assert "a"[..0] == [];
    }
    assert HexVal("b") == 11 by {
      assert "b"[..0] == [];
    }
    assert SpaceRun("a") == 0;
    assert !IntMulMisc.Accepted("a");
  }
}

=== FILE: hex_digits.dfy ===
/**
 * Hexadecimal numerals: which characters are digits, what they are worth,
 * the value of a digit string, and the digits `printf("%x")` produces.
 */
module HexDigits {
  import opened Arith

  predicate IsHexDigit(c: char)
  {
    '0' <= c <= '9' || 'a' <= c <= 'f' || 'A' <= c <= 'F'
  }

  predicate AllHex(s: string)
  {
    forall i :: 0 <= i < |s| ==> IsHexDigit(s[i])
  }

  predicate IsLowerHexDigit(c: char)
  {
    '0' <= c <= '9' || 'a' <= c <= 'f'
  }

  /** The digits `printf("%x")` uses. */
  predicate AllLowerHex(s: string)
  {
    forall i :: 0 <= i < |s| ==> IsLowerHexDigit(s[i])
  }

  /**
   * Value of one hexadecimal digit, either case. This is what the digit
   * conversion `parse_c_int` used by `add` stands for; its definition is
   * not part of this model.
   */
  function DigitVal(c: char): (v: nat)
    requires IsHexDigit(c)
    ensures v < 16
  {
    if c <= '9' then c as int - '0' as int
    else if c <= 'F' then c as int - 'A' as int + 10
    else c as int - 'a' as int + 10
  }

  /** The lower-case digit `printf("%x")` prints for a value below 16. */
  function LowerDigit(d: nat): (c: char)
    requires d < 16
    ensures IsLowerHexDigit(c) && IsHexDigit(c)
    ensures DigitVal(c) == d
  {
    if d < 10 then (d + '0' as int) as char else (d - 10 + 'a' as int) as char
  }

  /** The number a hexadecimal digit string denotes, most significant digit first. */
  function HexVal(s: string): nat
    requires AllHex(s)
  {
    if |s| == 0 then 0 else HexVal(s[..|s| - 1]) * 16 + DigitVal(s[|s| - 1])
  }

  /** A run of `n` zero digits. */
  function Zeros(n: nat): string
  {
    seq(n, _ => '0')
  }

  /** Digits written after other digits shift those by the length of the tail. */
  lemma {:induction false} HexValConcat(a: string, b: string)
    requires AllHex(a) && AllHex(b)
    ensures AllHex(a + b)
    ensures HexVal(a + b) == HexVal(a) * Pow(16, |b|) + HexVal(b)
    decreases |b|
  {
    if |b| == 0 {
      assert a + b == a;
    } else {
      var b' := b[..|b| - 1];
      var d := DigitVal(b[|b| - 1]);
      assert AllHex(b');
      assert (a + b)[..|a + b| - 1] == a + b';
      HexValConcat(a, b');
      assert HexVal(a + b) == HexVal(a + b') * 16 + d;
      assert HexVal(b) == HexVal(b') * 16 + d;
      ShiftStep(HexVal(a), Pow(16, |b'|), HexVal(b'), d);
    }
  }

  lemma {:induction false} ShiftStep(x: int, p: int, y: int, d: int)
    ensures (x * p + y) * 16 + d == x * (16 * p) + (y * 16 + d)
  {
  }

  lemma {:induction false} HexValZeros(n: nat)
    ensures AllHex(Zeros(n)) && HexVal(Zeros(n)) == 0
  {
    if n > 0 {
      assert Zeros(n)[..n - 1] == Zeros(n - 1);
      HexValZeros(n - 1);
    }
  }

  /** Leading zeros do not change the value of a numeral. */
  lemma {:induction false} LeadingZeros(n: nat, s: string)
    requires AllHex(s)
    ensures AllHex(Zeros(n) + s) && HexVal(Zeros(n) + s) == HexVal(s)
  {
    HexValZeros(n);
    HexValConcat(Zeros(n), s);
  }

  /** Trailing zeros multiply the value by a power of sixteen. */
  lemma {:induction false} TrailingZeros(s: string, n: nat)
    requires AllHex(s)
    ensures AllHex(s + Zeros(n)) && HexVal(s + Zeros(n)) == HexVal(s) * Pow(16, n)
  {
    HexValZeros(n);
    HexValConcat(s, Zeros(n));
  }

  /** A numeral of `k` digits denotes less than 16^k. */
  lemma {:induction false} HexValBound(s: string)
    requires AllHex(s)
    ensures HexVal(s) < Pow(16, |s|)
    decreases |s|
  {
    if |s| > 0 {
      HexValBound(s[..|s| - 1]);
    }
  }

  /**
   * The digits `printf("%x")` prints for a non-negative value: lower-case,
   * no leading zeros, a single "0" for zero.
   */
  function ToHex(n: nat): (s: string)
    ensures 0 < |s| && AllLowerHex(s) && AllHex(s)
    ensures HexVal(s) == n
    ensures |s| > 1 ==> s[0] != '0'
    decreases n
  {
    if n < 16 then [LowerDigit(n)]
    else
      var t := ToHex(n / 16);
      var d := LowerDigit(n % 16);
      assert (t + [d])[..|t|] == t;
      t + [d]
  }

  /** A value below 16^k is printed with at most k digits. */
  lemma {:induction false} ToHexFits(n: nat, k: nat)
    requires 0 < k && n < Pow(16, k)
    ensures |ToHex(n)| <= k
    decreases n
  {
    if n >= 16 {
      assert k > 1;
      ToHexFits(n / 16, k - 1);
    }
  }
}

=== FILE: http_misc.dfy ===
/**
 * `parse_int` of the HTTP exercise's `misc.c`: the decimal check of the
 * multiplier's variant, but it also sets `errno` to EINVAL on a rejected
 * string and tolerates a null destination.
 */
module HttpMisc {
  import opened Results
  import opened CLib
  import IntMulMisc

  /** Message of a string that is not a complete non-negative numeral. */
  const NOT_POSITIVE: string := "Number must be a positive integer"

  /** Message of a numeral above INT_MAX. */
  const OUT_OF_BOUNDS: string := "Number out of integer bounds"

  /**
   * What one call leaves behind: the return value, the destination (`None`
   * for a null pointer, otherwise the `int` it points to), whether `errno`
   * was set to EINVAL, and the error message printed (empty when none).
   */
  datatype Outcome = Outcome(ret: int, dst: Option<int>, einval: bool, message: string)

  /**
   * `parse_int(dst, src)`. A null `src` returns -1 without touching
   * `errno`; a string `strtol` does not consume completely, or a negative
   * value, or one above INT_MAX sets EINVAL and returns -1; otherwise the
   * value is stored through `dst` when that is not null, and 0 returned.
   */
  function ParseInt(dst: Option<int>, src: Option<string>): (o: Outcome)
    ensures o.ret == 0 || o.ret == -1
    ensures o.ret == 0 <==> src.Some? && IntMulMisc.Accepted(src.value)
    ensures o.einval <==> src.Some? && o.ret == -1
    ensures o.ret == -1 ==> o.dst == dst
    ensures o.dst.None? <==> dst.None?
    ensures o.ret == 0 && dst.Some? ==>
              o.dst == Some(if src.value == "" then 0 else Numeral(src.value).value)
    ensures o.message == "" <==> (o.ret == 0 || src.None?)
  {
    if src.None? then Outcome(-1, dst, false, "")
    else
      var c := Strtol(src.value);
      if c.end != |src.value| || c.value < 0 then Outcome(-1, dst, true, NOT_POSITIVE)
      else if c.value > INT_MAX then Outcome(-1, dst, true, OUT_OF_BOUNDS)
      else Outcome(0, if dst.None? then None else Some(c.value), false, "")
  }

  /**
   * The two `parse_int` variants accept the same strings and store the same
   * value; only the `errno` and null-destination handling differ.
   */
  lemma {:induction false} SameAsIntMul(dst: Option<int>, src: Option<string>)
    ensures ParseInt(dst, src).ret == 0 <==> IntMulMisc.ParseInt(src).Ok?
    ensures dst.Some? && ParseInt(dst, src).ret == 0 ==>
              ParseInt(dst, src).dst == Some(IntMulMisc.ParseInt(src).value)
  {
  }

  /**
   * Which message a rejected string prints: the bounds message exactly for
   * a complete numeral above INT_MAX.
   */
  lemma {:induction false} RejectionMessage(dst: Option<int>, s: string)
    requires ParseInt(dst, Some(s)).ret == -1
    ensures ParseInt(dst, Some(s)).message == OUT_OF_BOUNDS <==>
              s != "" && Numeral(s).Some? && Numeral(s).value > INT_MAX
    ensures ParseInt(dst, Some(s)).message == NOT_POSITIVE <==>
              s == "" || Numeral(s).None? || Numeral(s).value < 0
  {
    var c := Strtol(s);
    if s != "" && Numeral(s).Some? {
      assert c == Conversion(Clamp(Numeral(s).value), |s|);
    }
  }

  /** A printed number in range is stored through a non-null destination. */
  lemma {:induction false} ParseIntRoundTrip(old_value: int, n: nat)
    requires n <= INT_MAX
    ensures ParseInt(Some(old_value), Some(ToDecimal(n))) == Outcome(0, Some(n), false, "")
  {
    NumeralOfDecimal(n);
  }
}

=== FILE: intmul.dfy ===
/**
 * The multiplier program (`intmul.c`): reads two hexadecimal numbers from
 * standard input and prints their product. Operands of one digit are
 * multiplied directly; longer ones are split into halves whose four
 * partial products are computed by child processes running the same
 * program, then shifted and added. Here each child is a recursive call of
 * the whole program on the two lines its parent writes into the pipe.
 */
module IntMul {
  import opened Arith
  import opened Results
  import opened CLib
  import opened HexDigits
  import opened Hex
  import IntMulMisc

  /** `out` is one line holding lower-case hexadecimal digits that denote `p`. */
  predicate PrintsProduct(out: string, p: int)
  {
    && |out| > 0 && out[|out| - 1] == '\n'
    && AllLowerHex(out[..|out| - 1]) && AllHex(out[..|out| - 1])
    && HexVal(out[..|out| - 1]) == p
  }

  /** A usable operand: a non-empty string of hexadecimal digits. */
  predicate IsOperand(s: string)
  {
    |s| > 0 && AllHex(s)
  }

  /** Operand number `k` as `receive_rands` sees it: line `k` of the input without its newline. */
  function Operand(input: string, k: nat): string
    requires k < |Lines(input)|
  {
    IntMulMisc.RemoveNewline(Lines(input)[k])
  }

  // ---------------------------------------------------------------------
  // receive_rands
  // ---------------------------------------------------------------------

  /**
   * `receive_rands(a, b)`: reads the first two lines, strips their newline,
   * rejects a line that is not hexadecimal, rejects an input of fewer than
   * two lines, and pads both operands with leading zeros to the least power
   * of two that holds the longer one. Lines after the second are never read.
   */
  function ReceiveRands(input: string): (r: Result<(string, string)>)
    ensures r.Ok? <==> |Lines(input)| >= 2 && IsOperand(Operand(input, 0)) && IsOperand(Operand(input, 1))
    ensures r.Ok? ==> Padded(r.value.0, r.value.1, Operand(input, 0), Operand(input, 1))
  {
    var lines := Lines(input);
    if |lines| == 0 then Err
    else
      var x := IntMulMisc.RemoveNewline(lines[0]);
      if IntMulMisc.IsHex(x) == -1 then Err
      else if |lines| < 2 then Err
      else
        var y := IntMulMisc.RemoveNewline(lines[1]);
        if IntMulMisc.IsHex(y) == -1 then Err
        else
          var n := Max(|x|, |y|);
          PadPair(x, y);
          Ok((FillZeroes(x, n, true), FillZeroes(y, n, true)))
  }

  /**
   * `a` and `b` are the operands `x` and `y` padded with leading zeros to the
   * least power of two that holds the longer one.
   */
  predicate Padded(a: string, b: string, x: string, y: string)
  {
    && |a| == |b| == PowTarget(Max(|x|, |y|))
    && IsPow2(|a|) && |a| >= |x| && |a| >= |y|
    && a[|a| - |x|..] == x && b[|b| - |y|..] == y
    && AllHex(a) && AllHex(b) && AllHex(x) && AllHex(y)
    && HexVal(a) == HexVal(x) && HexVal(b) == HexVal(y)
  }

  lemma {:induction false} PadPair(x: string, y: string)
    requires IsOperand(x) && IsOperand(y)
    ensures Padded(FillZeroes(x, Max(|x|, |y|), true), FillZeroes(y, Max(|x|, |y|), true), x, y)
  {
    FillZeroesValue(x, Max(|x|, |y|), true);
    FillZeroesValue(y, Max(|x|, |y|), true);
  }

  /** The operand length the program works with on `input` (0 when the input is refused). */
  function Width(input: string): nat
  {
    match ReceiveRands(input)
    case Ok(ops) => |ops.0|
    case Err => 0
  }

  /** What a parent writes into a child's pipe: one operand per line. */
  lemma {:induction false} PairInput(x: string, y: string)
    requires '\n' !in x && '\n' !in y
    ensures Lines(x + "\n" + y + "\n") == [x + "\n", y + "\n"]
    ensures Operand(x + "\n" + y + "\n", 0) == x && Operand(x + "\n" + y + "\n", 1) == y
  {
    PairLines(x, y, []);
    assert x + "\n" + y + "\n" + [] == x + "\n" + y + "\n";
    StripLine(x);
    StripLine(y);
  }

  /** Two newline-free lines followed by `rest`. */
  lemma {:induction false} PairLines(x: string, y: string, rest: string)
    requires '\n' !in x && '\n' !in y
    ensures Lines(x + "\n" + y + "\n" + rest) == [x + "\n", y + "\n"] + Lines(rest)
  {
    var s := x + "\n" + y + "\n" + rest;
    assert s == x + "\n" + (y + "\n" + rest);
    LinesAfterLine(x, y + "\n" + rest);
    LinesAfterLine(y, rest);
  }

  lemma {:induction false} StripLine(x: string)
    ensures IntMulMisc.RemoveNewline(x + "\n") == x
  {
    assert (x + "\n")[..|x|] == x;
  }

  lemma {:induction false} HexHasNoNewline(s: string)
    requires AllHex(s)
    ensures '\n' !in s
  {
  }

  /** Lines after the second do not influence what is read. */
  lemma {:induction false} ExtraLinesIgnored(x: string, y: string, rest: string)
    requires '\n' !in x && '\n' !in y
    ensures ReceiveRands(x + "\n" + y + "\n" + rest) == ReceiveRands(x + "\n" + y + "\n")
  {
    PairInput(x, y);
    PairLines(x, y, rest);
  }

  /** Operands of equal power-of-two length pass through `receive_rands` unchanged. */
  lemma {:induction false} ChildInput(x: string, y: string)
    requires |x| == |y| && IsPow2(|x|) && AllHex(x) && AllHex(y)
    ensures ReceiveRands(x + "\n" + y + "\n") == Ok((x, y))
    ensures Width(x + "\n" + y + "\n") == |x|
  {
    HexHasNoNewline(x);
    HexHasNoNewline(y);
    PairInput(x, y);
    var r := ReceiveRands(x + "\n" + y + "\n");
    assert r.Ok?;
    PaddedSelf(r.value.0, r.value.1, x, y);
  }

  /** Operands that already have the same power-of-two length are not padded. */
  lemma {:induction false} PaddedSelf(a: string, b: string, x: string, y: string)
    requires Padded(a, b, x, y) && |x| == |y| && IsPow2(|x|)
    ensures a == x && b == y
  {
    PowTargetOfPow2(|x|);
    SuffixWhole(a, x);
    SuffixWhole(b, y);
  }

  lemma {:induction false} SuffixWhole(a: string, x: string)
    requires |a| == |x| && a[|a| - |x|..] == x
    ensures a == x
  {
    assert a == a[|a| - |x|..];
  }


  // ---------------------------------------------------------------------
  // evaluate_prod and the single-digit case of main
  // ---------------------------------------------------------------------

  /**
   * `evaluate_prod(prod_dec, length)`: prints the product in lower-case hex,
   * padded with leading zeros to `length` digits, followed by a newline.
   */
  function EvaluateProd(prod: nat, length: int): (r: string)
    ensures PrintsProduct(r, prod)
    ensures 0 < length && prod < Pow(16, length) ==> |r| == length + 1
  {
    var s := FillZeroes(ToHex(prod), length, false);
    FillZeroesValue(ToHex(prod), length, false);
    FillZeroesLower(ToHex(prod), length, false);
    assert 0 < length && prod < Pow(16, length) ==> |ToHex(prod)| <= length by {
      if 0 < length && prod < Pow(16, length) { ToHexFits(prod, length); }
    }
    assert (s + "\n")[..|s|] == s;
    s + "\n"
  }

  /**
   * The single-digit case of `main`, with the digits multiplied by their
   * hexadecimal values: the product is printed as exactly two digits.
   */
  function BaseProduct(a: string, b: string): (r: string)
    requires |a| == 1 && |b| == 1 && AllHex(a) && AllHex(b)
    ensures PrintsProduct(r, HexVal(a) * HexVal(b))
    ensures |r| == 3
  {
    var prod := DigitVal(a[0]) * DigitVal(b[0]);
    SingleDigitProduct(a, b);
    assert 2 * |a| == 2;
    EvaluateProd(prod, 2 * |a|)
  }

  /** Two single digits: their product is that of their digit values, and fits in two digits. */
  lemma {:induction false} SingleDigitProduct(a: string, b: string)
    requires |a| == 1 && |b| == 1 && AllHex(a) && AllHex(b)
    ensures HexVal(a) * HexVal(b) == DigitVal(a[0]) * DigitVal(b[0]) < Pow(16, 2)
  {
    assert a[..0] == [] && b[..0] == [];
    DigitProductBound(DigitVal(a[0]), DigitVal(b[0]));
  }

  lemma {:induction false} DigitProductBound(x: nat, y: nat)
    requires x < 16 && y < 16
    ensures x * y < Pow(16, 2)
  {
    assert Pow(16, 2) == 256;
    assert x * y <= 15 * 15 by {
      assert x * y <= x * 15 <= 15 * 15;
    }
  }

  // ---------------------------------------------------------------------
  // main, fork_multiply and fork_child
  // ---------------------------------------------------------------------

  /**
   * How the single-digit case of `main` multiplies: `AsWritten` calls
   * `multiply`, which reads both digits with the decimal `parse_int`;
   * `Corrected` multiplies their hexadecimal values (`BaseProduct`).
   */
  datatype Variant = AsWritten | Corrected

  /** Operands a variant multiplies: hexadecimal, and for `AsWritten` made of 0-9 only. */
  predicate Fits(v: Variant, s: string)
  {
    AllHex(s) && (v.AsWritten? ==> AllDigits(s))
  }

  /**
   * The single-digit case of `main`. As written, `multiply` fails as soon
   * as a digit is one of a-f; otherwise it writes the product as two
   * hexadecimal digits, which are printed on a line of their own.
   */
  function BaseCase(v: Variant, a: string, b: string): (r: Result<string>)
    requires |a| == 1 && |b| == 1 && AllHex(a) && AllHex(b)
    ensures v.AsWritten? ==> (r.Ok? <==> IsDigit(a[0]) && IsDigit(b[0]))
    ensures v.Corrected? ==> r.Ok?
    ensures r.Ok? ==> PrintsProduct(r.value, HexVal(a) * HexVal(b))
    ensures r.Ok? ==> |r.value| == 3
  {
    match v
    case AsWritten =>
      MultiplySingleDigits(a, b);
      var p :- Multiply(a, b);
      SingleDigitProduct(a, b);
      ToHexFits(HexVal(p), 2);
      assert (p + "\n")[..|p|] == p;
      Ok(p + "\n")
    case Corrected => Ok(BaseProduct(a, b))
  }

  /**
   * `main` with `argc` command-line words (the program name included) and
   * standard input `input`. `Ok(out)` is a successful exit after printing
   * `out`; `Err` is an exit with failure. Any argument is a usage error.
   */
  function Run(v: Variant, argc: int, input: string): (r: Result<string>)
    ensures argc > 1 ==> r.Err?
    ensures r.Ok? ==> ReceiveRands(input).Ok?
    decreases Width(input), 1
  {
    if argc > 1 then Err
    else
      var ops :- ReceiveRands(input);
      var (a, b) := ops;
      if |a| == 1 then BaseCase(v, a, b)
      else ForkMultiply(v, a, b)
  }

  /**
   * `fork_child(res, x, y)`: runs the program on "x\ny\n" and takes the first
   * line it prints, without the newline. A failing child fails the call.
   */
  function Child(v: Variant, x: string, y: string): (r: Result<string>)
    decreases Width(x + "\n" + y + "\n"), 2
  {
    var out :- Run(v, 1, x + "\n" + y + "\n");
    var lines := Lines(out);
    if |lines| == 0 then Err else Ok(IntMulMisc.RemoveNewline(lines[0]))
  }

  /**
   * `fork_multiply(a, b)`: splits both operands into high and low halves,
   * has the four partial products computed, shifts them into place and adds
   * them up. Its only caller hands it operands padded by `receive_rands`
   * to a common power-of-two length of at least two digits.
   */
  function ForkMultiply(v: Variant, a: string, b: string): (r: Result<string>)
    requires |a| == |b| >= 2 && IsPow2(|a|) && AllHex(a) && AllHex(b)
    decreases |a|, 0
  {
    var len := |a|;
    var half := len / 2;
    var ah, al := HalfStr(a, 0, half), HalfStr(a, 1, half);
    var bh, bl := HalfStr(b, 0, half), HalfStr(b, 1, half);
    assert ah == Hi(a) && al == Lo(a) && bh == Hi(b) && bl == Lo(b);
    SplitShape(a);
    SplitShape(b);
    ChildInput(ah, bh);
    ChildInput(ah, bl);
    ChildInput(al, bh);
    ChildInput(al, bl);
    var p0 :- Child(v, ah, bh);
    var p1 :- Child(v, ah, bl);
    var p2 :- Child(v, al, bh);
    var p3 :- Child(v, al, bl);
    var prod :- Combine(p0, p1, p2, p3, half);
    Ok(prod + "\n")
  }

  /**
   * The second half of `fork_multiply` for operands of `2 * half` digits:
   * the partial product of the high halves is shifted by the full length,
   * those of the mixed halves by `half` digits, and the four are summed
   * with `add`.
   */
  function Combine(p0: string, p1: string, p2: string, p3: string, half: nat): (r: Result<string>)
    ensures r.Ok? <==> AllHex(p0) && AllHex(p1) && AllHex(p2) && AllHex(p3)
    ensures r.Ok? ==> AllLowerHex(r.value) && AllHex(r.value)
  {
    ShiftLeftHex(p0, 2 * half);
    ShiftLeftHex(p1, half);
    ShiftLeftHex(p2, half);
    var sum1 :- Add(ShiftLeft(p0, 2 * half), ShiftLeft(p1, half));
    var sum2 :- Add(sum1, ShiftLeft(p2, half));
    Add(sum2, p3)
  }

  /** What `Combine` computes: the partial products, weighted by their shifts. */
  lemma {:induction false} CombineValue(p0: string, p1: string, p2: string, p3: string, half: nat)
    requires AllHex(p0) && AllHex(p1) && AllHex(p2) && AllHex(p3)
    ensures Combine(p0, p1, p2, p3, half).Ok?
    ensures HexVal(Combine(p0, p1, p2, p3, half).value)
         == (HexVal(p0) * Pow(16, half) + HexVal(p1) + HexVal(p2)) * Pow(16, half) + HexVal(p3)
  {
    CombineLinear(p0, p1, p2, p3, half);
    ShiftedSum(p0, p1, p2, half);
  }

  /** The three shifted partial products, as one Horner step. */
  lemma {:induction false} ShiftedSum(p0: string, p1: string, p2: string, half: nat)
    requires AllHex(p0) && AllHex(p1) && AllHex(p2)
    ensures AllHex(ShiftLeft(p0, 2 * half)) && AllHex(ShiftLeft(p1, half)) && AllHex(ShiftLeft(p2, half))
    ensures HexVal(ShiftLeft(p0, 2 * half)) + HexVal(ShiftLeft(p1, half)) + HexVal(ShiftLeft(p2, half))
         == (HexVal(p0) * Pow(16, half) + HexVal(p1) + HexVal(p2)) * Pow(16, half)
  {
    ShiftTwice(p0, half);
    ShiftLeftValue(p0, half);
    ShiftLeftValue(p1, half);
    ShiftLeftValue(p2, half);
    Regroup(HexVal(p0), HexVal(p1), HexVal(p2), HexVal(ShiftLeft(p0, 2 * half)), HexVal(ShiftLeft(p0, half)),
            HexVal(ShiftLeft(p1, half)), HexVal(ShiftLeft(p2, half)), Pow(16, half));
  }

  /** `Combine` adds its three shifted products and the last one. */
  lemma {:induction false} CombineLinear(p0: string, p1: string, p2: string, p3: string, half: nat)
    requires AllHex(p0) && AllHex(p1) && AllHex(p2) && AllHex(p3)
    ensures AllHex(ShiftLeft(p0, 2 * half)) && AllHex(ShiftLeft(p1, half)) && AllHex(ShiftLeft(p2, half))
    ensures Combine(p0, p1, p2, p3, half).Ok?
    ensures HexVal(Combine(p0, p1, p2, p3, half).value)
         == HexVal(ShiftLeft(p0, 2 * half)) + HexVal(ShiftLeft(p1, half)) + HexVal(ShiftLeft(p2, half)) + HexVal(p3)
  {
    CombineSums(p0, p1, p2, p3, half);
  }

  /** `Combine` succeeds with the last of its three sums. */
  lemma {:induction false} CombineSums(p0: string, p1: string, p2: string, p3: string, half: nat)
    requires AllHex(p0) && AllHex(p1) && AllHex(p2) && AllHex(p3)
    ensures var sum1 := Add(ShiftLeft(p0, 2 * half), ShiftLeft(p1, half));
            var sum2 := Add(sum1.value, ShiftLeft(p2, half));
            && sum1.Ok? && sum2.Ok? && Add(sum2.value, p3).Ok?
            && Combine(p0, p1, p2, p3, half) == Add(sum2.value, p3)
  {
    ShiftLeftHex(p0, 2 * half);
    ShiftLeftHex(p1, half);
    ShiftLeftHex(p2, half);
  }

  lemma {:induction false} Regroup(x0: int, x1: int, x2: int, t0: int, m0: int, t1: int, t2: int, h: int)
    requires m0 == x0 * h && t0 == m0 * h && t1 == x1 * h && t2 == x2 * h
    ensures t0 + t1 + t2 == (x0 * h + x1 + x2) * h
  {
  }

  /** A shift by twice `half` digits is two shifts by `half` digits. */
  lemma {:induction false} ShiftTwice(s: string, half: nat)
    requires AllHex(s)
    ensures AllHex(ShiftLeft(s, half)) && AllHex(ShiftLeft(s, 2 * half))
    ensures HexVal(ShiftLeft(s, 2 * half)) == HexVal(ShiftLeft(s, half)) * Pow(16, half)
  {
    assert ShiftLeft(s, 2 * half) == ShiftLeft(ShiftLeft(s, half), half);
    ShiftLeftValue(s, half);
    ShiftLeftValue(ShiftLeft(s, half), half);
  }

  lemma {:induction false} ShiftLeftHex(s: string, n: nat)
    ensures AllHex(ShiftLeft(s, n)) <==> AllHex(s)
  {
    if AllHex(s) {
      ShiftLeftValue(s, n);
    } else {
      var r := ShiftLeft(s, n);
      assert r[..|s|] == s;
    }
  }

  /** The high half of an operand of even length. */
  function Hi(a: string): string
  {
    HalfStr(a, 0, |a| / 2)
  }

  /** The low half of an operand of even length. */
  function Lo(a: string): string
  {
    HalfStr(a, 1, |a| / 2)
  }

  /** The halves of a padded operand are padded operands of half the length. */
  lemma {:induction false} SplitShape(a: string)
    requires |a| >= 2 && IsPow2(|a|) && AllHex(a)
    ensures |a| == 2 * (|a| / 2) && IsPow2(|a| / 2)
    ensures |Hi(a)| == |a| / 2 == |Lo(a)| && Hi(a) + Lo(a) == a
    ensures AllHex(Hi(a)) && AllHex(Lo(a))
  {
    var h := |a| / 2;
    HalvesRebuild(a, h);
    var hi, lo := HalfStr(a, 0, h), HalfStr(a, 1, h);
    assert hi == a[..h] && lo == a[h..];
  }

  /** The value of a padded operand, from the values of its halves. */
  lemma {:induction false} SplitOperand(a: string)
    requires |a| >= 2 && IsPow2(|a|) && AllHex(a)
    ensures AllHex(Hi(a)) && AllHex(Lo(a))
    ensures HexVal(a) == HexVal(Hi(a)) * Pow(16, |a| / 2) + HexVal(Lo(a))
  {
    SplitShape(a);
    HexValConcat(Hi(a), Lo(a));
  }

  // ---------------------------------------------------------------------
  // The product
  // ---------------------------------------------------------------------

  /** The four partial products, shifted into place, sum to the product of the split factors. */
  lemma {:induction false} SplitProduct(v: int, x: int, y: int, xh: int, xl: int, yh: int, yl: int, v0: int, v1: int, v2: int, v3: int, h: int)
    requires x == xh * h + xl && y == yh * h + yl
    requires v0 == xh * yh && v1 == xh * yl && v2 == xl * yh && v3 == xl * yl
    requires v == (v0 * h + v1 + v2) * h + v3
    ensures v == x * y
  {
    calc {
      x * y;
      (xh * h + xl) * (yh * h + yl);
      xh * h * (yh * h + yl) + xl * (yh * h + yl);
      (xh * yh * h + xh * yl + xl * yh) * h + xl * yl;
    }
  }

  /** `receive_rands` pads with zeros, so operands a variant fits stay fitting. */
  lemma {:induction false} RandsFit(v: Variant, input: string)
    requires ReceiveRands(input).Ok?
    requires Fits(v, Operand(input, 0)) && Fits(v, Operand(input, 1))
    ensures Fits(v, ReceiveRands(input).value.0) && Fits(v, ReceiveRands(input).value.1)
  {
    var x, y := Operand(input, 0), Operand(input, 1);
    var n := Max(|x|, |y|);
    assert ReceiveRands(input).value == (FillZeroes(x, n, true), FillZeroes(y, n, true));
    if v.AsWritten? {
      FillZeroesDigits(x, n, true);
      FillZeroesDigits(y, n, true);
    }
  }

  /** The halves of an operand a variant fits are fitting operands too. */
  lemma {:induction false} SplitFits(v: Variant, a: string)
    requires |a| >= 2 && IsPow2(|a|) && Fits(v, a)
    ensures Fits(v, Hi(a)) && Fits(v, Lo(a))
  {
    SplitShape(a);
    var h := |a| / 2;
    assert forall i :: 0 <= i < h ==> Hi(a)[i] == a[i] && Lo(a)[i] == a[h + i];
  }

  /** The four pairs of halves `fork_multiply` hands to its children. */
  lemma {:induction false} HalvesFit(v: Variant, a: string, b: string)
    requires |a| == |b| >= 2 && IsPow2(|a|) && Fits(v, a) && Fits(v, b)
    ensures |Hi(a)| == |Lo(a)| == |Hi(b)| == |Lo(b)| == |a| / 2 && IsPow2(|a| / 2)
    ensures Fits(v, Hi(a)) && Fits(v, Lo(a)) && Fits(v, Hi(b)) && Fits(v, Lo(b))
  {
    SplitShape(a);
    SplitShape(b);
    SplitFits(v, a);
    SplitFits(v, b);
  }

  /**
   * The program prints the product of its two operands, whatever their
   * lengths, once both are accepted, no argument is given, and the
   * variant multiplies them.
   */
  lemma {:induction false} RunMultiplies(v: Variant, argc: int, input: string)
    requires argc <= 1 && ReceiveRands(input).Ok?
    requires Fits(v, Operand(input, 0)) && Fits(v, Operand(input, 1))
    ensures Run(v, argc, input).Ok?
    ensures PrintsProduct(Run(v, argc, input).value, HexVal(Operand(input, 0)) * HexVal(Operand(input, 1)))
    decreases Width(input), 3
  {
    var (a, b) := ReceiveRands(input).value;
    assert HexVal(a) * HexVal(b) == HexVal(Operand(input, 0)) * HexVal(Operand(input, 1));
    RandsFit(v, input);
    if |a| == 1 {
      assert Run(v, argc, input) == BaseCase(v, a, b);
    } else {
      ForkMultiplies(v, a, b);
      assert Run(v, argc, input) == ForkMultiply(v, a, b);
    }
  }

  /** A child hands back the product of the operands it is given. */
  lemma {:induction false} ChildMultiplies(v: Variant, x: string, y: string)
    requires |x| == |y| && IsPow2(|x|) && Fits(v, x) && Fits(v, y)
    ensures Child(v, x, y).Ok?
    ensures AllLowerHex(Child(v, x, y).value) && AllHex(Child(v, x, y).value)
    ensures HexVal(Child(v, x, y).value) == HexVal(x) * HexVal(y)
    decreases Width(x + "\n" + y + "\n"), 5
  {
    ChildRuns(v, x, y);
    ChildReads(v, x, y);
  }

  /** A child's run, on the two lines it is given, prints their product. */
  lemma {:induction false} ChildRuns(v: Variant, x: string, y: string)
    requires |x| == |y| && IsPow2(|x|) && Fits(v, x) && Fits(v, y)
    ensures Run(v, 1, x + "\n" + y + "\n").Ok?
    ensures PrintsProduct(Run(v, 1, x + "\n" + y + "\n").value, HexVal(x) * HexVal(y))
    decreases Width(x + "\n" + y + "\n"), 4
  {
    var input := x + "\n" + y + "\n";
    ChildInput(x, y);
    HexHasNoNewline(x);
    HexHasNoNewline(y);
    PairInput(x, y);
    RunMultiplies(v, 1, input);
  }

  /** A child whose run prints a line hands back that line without its newline. */
  lemma {:induction false} ChildReads(v: Variant, x: string, y: string)
    requires Run(v, 1, x + "\n" + y + "\n").Ok?
    requires var out := Run(v, 1, x + "\n" + y + "\n").value;
             |out| > 0 && out[|out| - 1] == '\n' && AllHex(out[..|out| - 1])
    ensures var out := Run(v, 1, x + "\n" + y + "\n").value;
            Child(v, x, y) == Ok(out[..|out| - 1])
  {
    ReadBack(Run(v, 1, x + "\n" + y + "\n").value);
  }

  /** The first line of a printed product, without its newline, is the product. */
  lemma {:induction false} ReadBack(out: string)
    requires |out| > 0 && out[|out| - 1] == '\n' && AllHex(out[..|out| - 1])
    ensures |Lines(out)| > 0 && IntMulMisc.RemoveNewline(Lines(out)[0]) == out[..|out| - 1]
  {
    var p := out[..|out| - 1];
    assert out == p + "\n" + [];
    HexHasNoNewline(p);
    LinesAfterLine(p, []);
    StripLine(p);
  }

  /** `fork_multiply` prints the product of its operands. */
  lemma {:induction false} ForkMultiplies(v: Variant, a: string, b: string)
    requires |a| == |b| >= 2 && IsPow2(|a|) && Fits(v, a) && Fits(v, b)
    ensures ForkMultiply(v, a, b).Ok?
    ensures PrintsProduct(ForkMultiply(v, a, b).value, HexVal(a) * HexVal(b))
    decreases |a|, 2
  {
    ForkProduct(v, a, b);
    var p0, p1 := Child(v, Hi(a), Hi(b)).value, Child(v, Hi(a), Lo(b)).value;
    var p2, p3 := Child(v, Lo(a), Hi(b)).value, Child(v, Lo(a), Lo(b)).value;
    var prod := Combine(p0, p1, p2, p3, |a| / 2).value;
    assert ForkMultiply(v, a, b) == Ok(prod + "\n");
    assert (prod + "\n")[..|prod|] == prod;
  }

  /** The combined products of the halves of the operands. */
  lemma {:induction false} ForkProduct(v: Variant, a: string, b: string)
    requires |a| == |b| >= 2 && IsPow2(|a|) && Fits(v, a) && Fits(v, b)
    ensures Child(v, Hi(a), Hi(b)).Ok? && Child(v, Hi(a), Lo(b)).Ok?
    ensures Child(v, Lo(a), Hi(b)).Ok? && Child(v, Lo(a), Lo(b)).Ok?
    ensures var r := Combine(Child(v, Hi(a), Hi(b)).value, Child(v, Hi(a), Lo(b)).value,
                             Child(v, Lo(a), Hi(b)).value, Child(v, Lo(a), Lo(b)).value, |a| / 2);
            r.Ok? && AllLowerHex(r.value) && AllHex(r.value) && HexVal(r.value) == HexVal(a) * HexVal(b)
    decreases |a|, 1
  {
    ForkChildren(v, a, b);
    ForkCombine(a, b, Child(v, Hi(a), Hi(b)).value, Child(v, Hi(a), Lo(b)).value,
                Child(v, Lo(a), Hi(b)).value, Child(v, Lo(a), Lo(b)).value);
  }

  /** The four children of `fork_multiply` print the products of the halves. */
  lemma {:induction false} ForkChildren(v: Variant, a: string, b: string)
    requires |a| == |b| >= 2 && IsPow2(|a|) && Fits(v, a) && Fits(v, b)
    ensures Child(v, Hi(a), Hi(b)).Ok? && Child(v, Hi(a), Lo(b)).Ok?
    ensures Child(v, Lo(a), Hi(b)).Ok? && Child(v, Lo(a), Lo(b)).Ok?
    ensures AllHex(Hi(a)) && AllHex(Lo(a)) && AllHex(Hi(b)) && AllHex(Lo(b))
    ensures AllHex(Child(v, Hi(a), Hi(b)).value) && HexVal(Child(v, Hi(a), Hi(b)).value) == HexVal(Hi(a)) * HexVal(Hi(b))
    ensures AllHex(Child(v, Hi(a), Lo(b)).value) && HexVal(Child(v, Hi(a), Lo(b)).value) == HexVal(Hi(a)) * HexVal(Lo(b))
    ensures AllHex(Child(v, Lo(a), Hi(b)).value) && HexVal(Child(v, Lo(a), Hi(b)).value) == HexVal(Lo(a)) * HexVal(Hi(b))
    ensures AllHex(Child(v, Lo(a), Lo(b)).value) && HexVal(Child(v, Lo(a), Lo(b)).value) == HexVal(Lo(a)) * HexVal(Lo(b))
    decreases |a|, 0
  {
    HalvesFit(v, a, b);
    ChildInput(Hi(a), Hi(b));
    ChildInput(Hi(a), Lo(b));
    ChildInput(Lo(a), Hi(b));
    ChildInput(Lo(a), Lo(b));
    ChildMultiplies(v, Hi(a), Hi(b));
    ChildMultiplies(v, Hi(a), Lo(b));
    ChildMultiplies(v, Lo(a), Hi(b));
    ChildMultiplies(v, Lo(a), Lo(b));
  }

  /** `Combine` applied to the products of the halves yields the product of the operands. */
  lemma {:induction false} ForkCombine(a: string, b: string, p0: string, p1: string, p2: string, p3: string)
    requires |a| == |b| >= 2 && IsPow2(|a|) && AllHex(a) && AllHex(b)
    requires AllHex(Hi(a)) && AllHex(Lo(a)) && AllHex(Hi(b)) && AllHex(Lo(b))
    requires AllHex(p0) && HexVal(p0) == HexVal(Hi(a)) * HexVal(Hi(b))
    requires AllHex(p1) && HexVal(p1) == HexVal(Hi(a)) * HexVal(Lo(b))
    requires AllHex(p2) && HexVal(p2) == HexVal(Lo(a)) * HexVal(Hi(b))
    requires AllHex(p3) && HexVal(p3) == HexVal(Lo(a)) * HexVal(Lo(b))
    ensures Combine(p0, p1, p2, p3, |a| / 2).Ok?
    ensures HexVal(Combine(p0, p1, p2, p3, |a| / 2).value) == HexVal(a) * HexVal(b)
  {
    ForkValue(a, b, p0, p1, p2, p3);
    CombineTo(p0, p1, p2, p3, |a| / 2, HexVal(a) * HexVal(b));
  }

  /** `Combine` reaches any value its Horner form denotes. */
  lemma {:induction false} CombineTo(p0: string, p1: string, p2: string, p3: string, half: nat, v: int)
    requires AllHex(p0) && AllHex(p1) && AllHex(p2) && AllHex(p3)
    requires (HexVal(p0) * Pow(16, half) + HexVal(p1) + HexVal(p2)) * Pow(16, half) + HexVal(p3) == v
    ensures Combine(p0, p1, p2, p3, half).Ok?
    ensures HexVal(Combine(p0, p1, p2, p3, half).value) == v
  {
    CombineValue(p0, p1, p2, p3, half);
  }

  /** Combining the products of the halves gives the product of the operands. */
  lemma {:induction false} ForkValue(a: string, b: string, p0: string, p1: string, p2: string, p3: string)
    requires |a| == |b| >= 2 && IsPow2(|a|) && AllHex(a) && AllHex(b)
    requires AllHex(Hi(a)) && AllHex(Lo(a)) && AllHex(Hi(b)) && AllHex(Lo(b))
    requires AllHex(p0) && HexVal(p0) == HexVal(Hi(a)) * HexVal(Hi(b))
    requires AllHex(p1) && HexVal(p1) == HexVal(Hi(a)) * HexVal(Lo(b))
    requires AllHex(p2) && HexVal(p2) == HexVal(Lo(a)) * HexVal(Hi(b))
    requires AllHex(p3) && HexVal(p3) == HexVal(Lo(a)) * HexVal(Lo(b))
    ensures (HexVal(p0) * Pow(16, |a| / 2) + HexVal(p1) + HexVal(p2)) * Pow(16, |a| / 2) + HexVal(p3)
         == HexVal(a) * HexVal(b)
  {
    SplitOperand(a);
    SplitOperand(b);
    SplitProduct((HexVal(p0) * Pow(16, |a| / 2) + HexVal(p1) + HexVal(p2)) * Pow(16, |a| / 2) + HexVal(p3),
                 HexVal(a), HexVal(b), HexVal(Hi(a)), HexVal(Lo(a)), HexVal(Hi(b)), HexVal(Lo(b)),
                 HexVal(p0), HexVal(p1), HexVal(p2), HexVal(p3), Pow(16, |a| / 2));
  }

  /**
   * The whole program on two lines prints their product. Corrected, this
   * holds for any hexadecimal operands; as written, for operands made of
   * the digits 0-9.
   */
  lemma {:induction false} Multiplies(v: Variant, x: string, y: string)
    requires IsOperand(x) && IsOperand(y) && Fits(v, x) && Fits(v, y)
    ensures Run(v, 1, x + "\n" + y + "\n").Ok?
    ensures PrintsProduct(Run(v, 1, x + "\n" + y + "\n").value, HexVal(x) * HexVal(y))
  {
    HexHasNoNewline(x);
    HexHasNoNewline(y);
    PairInput(x, y);
    RunMultiplies(v, 1, x + "\n" + y + "\n");
  }

  /**
   * Two single digits: the program as written fails exactly when one of
   * them is a-f or A-F, while the corrected one always succeeds; either
   * way a success prints exactly two digits and a newline.
   */
  lemma {:induction false} RunSingleDigits(x: string, y: string)
    requires |x| == 1 && |y| == 1 && AllHex(x) && AllHex(y)
    ensures Run(AsWritten, 1, x + "\n" + y + "\n").Ok? <==> IsDigit(x[0]) && IsDigit(y[0])
    ensures Run(Corrected, 1, x + "\n" + y + "\n").Ok?
    ensures forall v :: Run(v, 1, x + "\n" + y + "\n").Ok? ==> |Run(v, 1, x + "\n" + y + "\n").value| == 3
  {
    assert IsPow2(1);
    ChildInput(x, y);
    assert Run(AsWritten, 1, x + "\n" + y + "\n") == BaseCase(AsWritten, x, y);
    assert Run(Corrected, 1, x + "\n" + y + "\n") == BaseCase(Corrected, x, y);
  }
}

=== FILE: intmul_misc.dfy ===
/** The helpers of the multiplier's `misc.c`: newline removal, decimal and hex validation. */
module IntMulMisc {
  import opened Results
  import opened CLib
  import opened HexDigits

  /** The accept set handed to `strspn` by `is_hex`. */
  const HEX_SYMBOLS: string := "0123456789abcdefABCDEF"

  lemma {:induction false} HexSymbols(c: char)
    ensures c in HEX_SYMBOLS <==> IsHexDigit(c)
  {
  }

  /** `strspn` over the hex symbols reaches the end exactly for all-digit strings. */
  lemma {:induction false} HexSpan(s: string)
    ensures Strspn(s, HEX_SYMBOLS) == |s| <==> AllHex(s)
  {
    var span := Strspn(s, HEX_SYMBOLS);
    if span < |s| {
      HexSymbols(s[span]);
    }
    forall i | 0 <= i < span {
      HexSymbols(s[i]);
    }
  }

  /**
   * `remove_newline`: drops one trailing newline, if there is one. The C
   * code reads the last character, so the string must not be empty.
   */
  function RemoveNewline(src: string): (r: string)
    requires |src| > 0
    ensures |r| == |src| || |r| == |src| - 1
    ensures r == src[..|r|]
    ensures |r| < |src| <==> src[|src| - 1] == '\n'
  {
    if src[|src| - 1] == '\n' then src[..|src| - 1] else src
  }

  /**
   * The strings both `parse_int` variants accept: the empty string, or a
   * complete decimal numeral whose value lies in 0..INT_MAX.
   */
  predicate Accepted(s: string)
  {
    s == "" || (Numeral(s).Some? && 0 <= Numeral(s).value <= INT_MAX)
  }

  /**
   * `parse_int(dst, src)`: `Ok(n)` is a return of 0 with `*dst = n`, `Err`
   * a return of -1 with `*dst` untouched. `src` is accepted when `strtol`
   * consumes all of it and the value lies in 0..INT_MAX; since `strtol`
   * consumes nothing of the empty string, "" is accepted as 0.
   */
  function ParseInt(src: Option<string>): (r: Result<int>)
    ensures src.None? ==> r.Err?
    ensures r.Ok? <==> (src.Some? && Accepted(src.value))
    ensures r.Ok? ==> r.value == if src.value == "" then 0 else Numeral(src.value).value
  {
    if src.None? then Err
    else
      var c := Strtol(src.value);
      if c.end != |src.value| || c.value < 0 then Err
      else if c.value > INT_MAX then Err
      else Ok(c.value)
  }

  /** `is_hex`: 0 for a non-empty string of hexadecimal digits, -1 otherwise. */
  function IsHex(s: string): (r: int)
    ensures r == 0 || r == -1
    ensures r == 0 <==> |s| > 0 && AllHex(s)
  {
    var span := Strspn(s, HEX_SYMBOLS);
    HexSpan(s);
    if |s| != 0 && span == |s| then 0 else -1
  }

  /** A printed number in range parses back to itself. */
  lemma {:induction false} ParseIntRoundTrip(n: nat)
    requires n <= INT_MAX
    ensures ParseInt(Some(ToDecimal(n))) == Ok(n)
  {
    NumeralOfDecimal(n);
  }

  /** A printed number above INT_MAX is refused. */
  lemma {:induction false} ParseIntTooLarge(n: nat)
    requires n > INT_MAX
    ensures ParseInt(Some(ToDecimal(n))) == Err
  {
    NumeralOfDecimal(n);
  }

  /** A minus sign before a non-zero number is refused. */
  lemma {:induction false} ParseIntNegative(n: nat)
    requires n > 0
    ensures ParseInt(Some("-" + ToDecimal(n))) == Err
  {
    var s := "-" + ToDecimal(n);
    assert SpaceRun(s) == 0;
    assert s[1..] == ToDecimal(n);
  }

  /** A string of white space only has no digits, and `strtol` leaves the end pointer at its start. */
  lemma {:induction false} ParseIntBlank(s: string)
    requires |s| > 0 && forall i :: 0 <= i < |s| ==> IsSpace(s[i])
    ensures ParseInt(Some(s)) == Err
  {
  }
}

=== FILE: ispalindrom.dfy ===
/**
 * The palindrome checker (`ispalindrom.c`): reads each file line by line
 * and reports for every non-empty line whether it reads the same
 * backwards.
 */
module Palindrom {
  import opened Results
  import opened CLib
  import IntMulMisc

  const EXIT_SUCCESS: int := 0
  const EXIT_FAILURE: int := 1

  const IS_PALINDROM: string := " is a palindrom\n"
  const IS_NOT_PALINDROM: string := " is not a palindrom\n"

  /** `s` read backwards. */
  function Reverse(s: string): (r: string)
    ensures |r| == |s|
    ensures forall i :: 0 <= i < |s| ==> r[i] == s[|s| - 1 - i]
  {
    if |s| == 0 then "" else [s[|s| - 1]] + Reverse(s[..|s| - 1])
  }

  // ---------------------------------------------------------------------
  // is_palindrom
  // ---------------------------------------------------------------------

  /**
   * The loop of `is_palindrom` from index `i` on: it compares `line[i]` with
   * its mirror `line[|line| - 1 - i]` while `i < |line| / 2 + 1`.
   */
  function MirrorScan(line: string, i: nat): (r: int)
    requires |line| > 0
    ensures r == 0 || r == 1
    decreases |line| - i
  {
    if i >= |line| / 2 + 1 then 1
    else if line[i] != line[|line| - 1 - i] then 0
    else MirrorScan(line, i + 1)
  }

  /**
   * `is_palindrom(line)`: 1 when the line reads the same backwards, 0
   * otherwise. The C loop reads `line[strlen(line) - 1]`, so the line must
   * not be empty; the caller skips empty lines.
   */
  function IsPalindrom(line: string): (r: int)
    requires |line| > 0
    ensures r == 0 || r == 1
  {
    MirrorScan(line, 0)
  }

  /** The scan from `i` finds no mismatch exactly when every pair from `i` on matches. */
  lemma {:induction false} MirrorScanMatches(line: string, i: nat)
    requires |line| > 0
    ensures MirrorScan(line, i) == 1 <==>
              forall k :: i <= k < |line| / 2 + 1 ==> line[k] == line[|line| - 1 - k]
    decreases |line| - i
  {
    if i < |line| / 2 + 1 && line[i] == line[|line| - 1 - i] {
      MirrorScanMatches(line, i + 1);
    }
  }

  /** `is_palindrom` answers 1 exactly for the lines equal to their reversal. */
  lemma {:induction false} IsPalindromReverse(line: string)
    requires |line| > 0
    ensures IsPalindrom(line) == 1 <==> line == Reverse(line)
  {
    var n := |line|;
    MirrorScanMatches(line, 0);
    if IsPalindrom(line) == 1 {
      forall k | 0 <= k < n ensures line[k] == Reverse(line)[k] {
        if k >= n / 2 + 1 {
          var m := n - 1 - k;
          assert 0 <= m < n / 2 + 1;
        }
      }
    }
  }

  /** Case matters: `Aa` is not reported as a palindrome, since the flag `-i` has no effect. */
  lemma CaseMatters()
    ensures IsPalindrom("Aa") == 0 && IsPalindrom("aa") == 1
  {
  }

  // ---------------------------------------------------------------------
  // check_file
  // ---------------------------------------------------------------------

  /** The report line for a non-empty, newline-free line. */
  function Report(line: string): (r: string)
    requires |line| > 0
    ensures line == Reverse(line) ==> r == line + IS_PALINDROM
    ensures line != Reverse(line) ==> r == line + IS_NOT_PALINDROM
  {
    IsPalindromReverse(line);
    line + (if IsPalindrom(line) == 1 then IS_PALINDROM else IS_NOT_PALINDROM)
  }

  /**
   * The loop of `check_file` over the lines `getline` returns: each loses
   * its newline, is skipped if nothing is left, and otherwise its report is
   * appended to the output. `getline` never returns an empty line.
   */
  function CheckLines(lines: seq<string>): string
    requires forall i :: 0 <= i < |lines| ==> |lines[i]| > 0
  {
    if |lines| == 0 then ""
    else
      var res := IntMulMisc.RemoveNewline(lines[0]);
      (if |res| == 0 then "" else Report(res)) + CheckLines(lines[1..])
  }

  /** `check_file` on a readable file holding `text`. */
  function CheckFile(text: string): (out: string)
    ensures text == "" ==> out == ""
  {
    CheckLines(Lines(text))
  }

  /**
   * A newline-terminated first line contributes its report, or nothing when
   * it is empty, followed by the output for the rest of the file.
   */
  lemma {:induction false} CheckFileLine(x: string, rest: string)
    requires '\n' !in x
    ensures CheckFile(x + "\n" + rest) == (if x == "" then "" else Report(x)) + CheckFile(rest)
  {
    LinesAfterLine(x, rest);
    var ls := Lines(x + "\n" + rest);
    assert ls[0] == x + "\n" && ls[1..] == Lines(rest);
    assert IntMulMisc.RemoveNewline(x + "\n") == x;
  }

  /** A last line without newline is reported as it is. */
  lemma {:induction false} CheckFileLastLine(x: string)
    requires x != "" && '\n' !in x
    ensures CheckFile(x) == Report(x)
  {
    var k := LineEnd(x);
    assert k == |x|;
    assert x[..k] == x && x[k..] == "";
    assert Lines(x) == [x];
    assert x[|x| - 1] != '\n';
    assert IntMulMisc.RemoveNewline(x) == x;
    assert CheckLines([x]) == Report(x) + CheckLines([x][1..]);
  }

  // ---------------------------------------------------------------------
  // main
  // ---------------------------------------------------------------------

  /** The options `getopt` collected: `-s`, `-i` and `-o outfile`. */
  datatype Options = Options(ignoreWhitespace: bool, ignoreCasing: bool, outFile: Option<string>)

  /** What the process leaves behind: its standard output and exit status. */
  datatype Exit = Exit(stdout: string, status: int)

  /** The message of `print_usage`, without a trailing newline. */
  function Usage(programName: string): string
  {
    "Usage: " + programName + " [-s] [-i] [-o outfile] [file...]"
  }

  /**
   * The file loop of `main` after `printed` has gone to standard output:
   * a file that cannot be opened ends the process with EXIT_FAILURE;
   * otherwise its report is printed unless `-o` was given, in which case
   * nothing is written anywhere.
   */
  function RunFiles(opts: Options, files: seq<Option<string>>, printed: string): (e: Exit)
    ensures e.status == EXIT_SUCCESS || e.status == EXIT_FAILURE
    ensures e.status == EXIT_SUCCESS <==> forall k :: 0 <= k < |files| ==> files[k].Some?
    decreases |files|
  {
    if |files| == 0 then Exit(printed, EXIT_SUCCESS)
    else if files[0].None? then Exit(printed, EXIT_FAILURE)
    else
      var out := if opts.outFile.Some? then "" else CheckFile(files[0].value);
      RunFiles(opts, files[1..], printed + out)
  }

  /**
   * `main(argc, argv)` once `getopt` has collected the options: with no
   * file operand the usage is printed and the status is EXIT_FAILURE;
   * otherwise the files are checked in order. The process succeeds exactly
   * when there are files and all of them can be opened; without `-o` it
   * prints the reports of the files up to the first one that cannot be
   * opened, with `-o` nothing.
   */
  function Run(programName: string, opts: Options, files: seq<Option<string>>): (e: Exit)
    ensures |files| == 0 ==> e == Exit(Usage(programName), EXIT_FAILURE)
    ensures e.status == EXIT_SUCCESS <==> |files| > 0 && forall k :: 0 <= k < |files| ==> files[k].Some?
    ensures |files| > 0 && opts.outFile.None? ==> e.stdout == Reports(files)
    ensures |files| > 0 && opts.outFile.Some? ==> e.stdout == ""
  {
    if |files| == 0 then Exit(Usage(programName), EXIT_FAILURE)
    else
      RunFilesOutput(opts, files, "");
      assert "" + Reports(files) == Reports(files);
      RunFiles(opts, files, "")
  }

  /** The reports of all readable files, in order. */
  function Reports(files: seq<Option<string>>): string
  {
    if |files| == 0 || files[0].None? then "" else CheckFile(files[0].value) + Reports(files[1..])
  }

  /**
   * Without `-o`, the output is the reports of the files up to the first
   * one that cannot be opened; with `-o`, nothing is printed.
   */
  lemma {:induction false} RunFilesOutput(opts: Options, files: seq<Option<string>>, printed: string)
    ensures opts.outFile.None? ==> RunFiles(opts, files, printed).stdout == printed + Reports(files)
    ensures opts.outFile.Some? ==> RunFiles(opts, files, printed).stdout == printed
    decreases |files|
  {
    if |files| > 0 && files[0].Some? {
      var out := if opts.outFile.Some? then "" else CheckFile(files[0].value);
      assert RunFiles(opts, files, printed) == RunFiles(opts, files[1..], printed + out);
      RunFilesOutput(opts, files[1..], printed + out);
      if opts.outFile.None? {
        assert Reports(files) == out + Reports(files[1..]);
        assert printed + out + Reports(files[1..]) == printed + (out + Reports(files[1..]));
      } else {
        assert printed + out == printed;
      }
    }
  }

  /** The flags `-s` and `-i` are read but change nothing. */
  lemma {:induction false} FlagsIgnored(programName: string, opts: Options, s: bool, i: bool, files: seq<Option<string>>)
    ensures Run(programName, opts, files) == Run(programName, opts.(ignoreWhitespace := s, ignoreCasing := i), files)
  {
    if |files| > 0 {
      RunFilesFlags(opts, s, i, files, "");
    }
  }

  lemma {:induction false} RunFilesFlags(opts: Options, s: bool, i: bool, files: seq<Option<string>>, printed: string)
    ensures RunFiles(opts, files, printed) == RunFiles(opts.(ignoreWhitespace := s, ignoreCasing := i), files, printed)
    decreases |files|
  {
    if |files| > 0 && files[0].Some? {
      var out := if opts.outFile.Some? then "" else CheckFile(files[0].value);
      RunFilesFlags(opts, s, i, files[1..], printed + out);
    }
  }
}

=== FILE: results.dfy ===
/**
 * Outcomes of the C routines. The programs report an error on stderr and
 * return -1; the model keeps only the fact that the call failed.
 */
module Results {

  /** A possibly-NULL pointer argument, or an optional value. */
  datatype Option<+T> = None | Some(value: T)

  /** `Ok(v)`: the routine returned 0 and produced `v`; `Err`: it returned -1. */
  datatype Result<+T> = Ok(value: T) | Err
  {
    predicate IsFailure()
    {
      Err?
    }

    function PropagateFailure<U>(): Result<U>
      requires Err?
    {
      Err
    }

    function Extract(): T
      requires Ok?
    {
      value
    }
  }
}

=== FILE: strfun.dfy ===
/**
 * The string helpers of the palindrome checker (`strfun.c`): removing
 * blanks, dropping a trailing newline and lower-casing.
 */
module StrFun {
  import opened CLib
  import IntMulMisc

  /** The character `trim` drops: the blank, code 32. */
  const BLANK: char := ' '

  // ---------------------------------------------------------------------
  // trim
  // ---------------------------------------------------------------------

  /** `s` with every blank removed and all other characters kept in order. */
  function Trim(s: string): (r: string)
    ensures |r| <= |s|
    ensures BLANK !in r
  {
    if |s| == 0 then ""
    else Trim(s[..|s| - 1]) + (if s[|s| - 1] == BLANK then "" else [s[|s| - 1]])
  }

  /**
   * `trim(res, src)`: copies every character of `src` that is not a blank
   * to the front of `res`, advancing `res_i` only on a copy.
   */
  method TrimCopy(src: string) returns (res: string)
    ensures res == Trim(src)
  {
    res := "";
    var i := 0;
    while i < |src|
      invariant 0 <= i <= |src|
      invariant res == Trim(src[..i])
    {
      assert src[..i + 1][..i] == src[..i];
      if src[i] != BLANK {
        res := res + [src[i]];
      }
      i := i + 1;
    }
    assert src[..|src|] == src;
  }

  /** Trimming works piecewise: the blanks of a concatenation are those of its parts. */
  lemma {:induction false} TrimConcat(a: string, b: string)
    ensures Trim(a + b) == Trim(a) + Trim(b)
    decreases |b|
  {
    if |b| == 0 {
      assert a + b == a;
    } else {
      var b', c := b[..|b| - 1], b[|b| - 1];
      var x := if c == BLANK then "" else [c];
      TrimConcat(a, b');
      assert (a + b)[..|a + b| - 1] == a + b' && (a + b)[|a + b| - 1] == c;
      assert Trim(a + b) == Trim(a + b') + x;
      assert Trim(b) == Trim(b') + x;
      assert Trim(a) + Trim(b') + x == Trim(a) + (Trim(b') + x);
    }
  }

  /** Trimming a single character keeps it exactly when it is not a blank. */
  lemma {:induction false} TrimChar(c: char)
    ensures Trim([c]) == if c == BLANK then "" else [c]
  {
    assert [c][..0] == "";
  }

  /** A string without blanks is left as it is; in particular trimming twice is trimming once. */
  lemma {:induction false} TrimNoBlank(s: string)
    requires BLANK !in s
    ensures Trim(s) == s
  {
    if |s| > 0 {
      TrimNoBlank(s[..|s| - 1]);
      assert s == s[..|s| - 1] + [s[|s| - 1]];
    }
  }

  lemma {:induction false} TrimIdempotent(s: string)
    ensures Trim(Trim(s)) == Trim(s)
  {
    TrimNoBlank(Trim(s));
  }

  /** Every character other than the blank survives, as often as it occurs. */
  lemma {:induction false} TrimCounts(s: string, c: char)
    ensures multiset(Trim(s))[c] == if c == BLANK then 0 else multiset(s)[c]
  {
    if |s| > 0 {
      TrimCounts(s[..|s| - 1], c);
      TrimLast(s);
    }
  }

  /** The last character of `s` adds itself to `s`, and to `Trim(s)` unless it is a blank. */
  lemma {:induction false} TrimLast(s: string)
    requires |s| > 0
    ensures var init, last := s[..|s| - 1], s[|s| - 1];
            && multiset(s) == multiset(init) + multiset{last}
            && multiset(Trim(s)) == multiset(Trim(init)) + (if last == BLANK then multiset{} else multiset{last})
  {
    assert s == s[..|s| - 1] + [s[|s| - 1]];
  }

  // ---------------------------------------------------------------------
  // remove_newline
  // ---------------------------------------------------------------------

  /**
   * `remove_newline` of `strfun.c` is the one of the multiplier's `misc.c`.
   * Applied to a line `getline` returned, it leaves the line without any
   * newline, and its content otherwise intact.
   */
  lemma {:induction false} RemoveNewlineOfLine(text: string, i: int)
    requires 0 <= i < |Lines(text)|
    ensures var line := Lines(text)[i];
            var r := IntMulMisc.RemoveNewline(line);
            && '\n' !in r
            && (r == line || r + "\n" == line)
  {
    var line := Lines(text)[i];
    var r := IntMulMisc.RemoveNewline(line);
    if |r| < |line| {
      assert r + "\n" == line;
    }
    forall j | 0 <= j < |r| ensures r[j] != '\n' {
      assert r[j] == line[j];
      if j == |line| - 1 {
        assert |r| == |line| && i == |Lines(text)| - 1;
      }
    }
  }

  // ---------------------------------------------------------------------
  // to_lower
  // ---------------------------------------------------------------------

  /** `to_lower`: `tolower` applied to every character, in place. */
  function ToLower(s: string): (r: string)
    ensures |r| == |s|
    ensures forall i :: 0 <= i < |s| ==> r[i] == Tolower(s[i])
    ensures forall i :: 0 <= i < |s| ==> !('A' <= r[i] <= 'Z')
    ensures forall i :: 0 <= i < |s| && !('A' <= s[i] <= 'Z') ==> r[i] == s[i]
  {
    if |s| == 0 then "" else ToLower(s[..|s| - 1]) + [Tolower(s[|s| - 1])]
  }

  /** Lower-casing twice is lower-casing once. */
  lemma {:induction false} ToLowerIdempotent(s: string)
    ensures ToLower(ToLower(s)) == ToLower(s)
  {
    var t := ToLower(s);
    assert forall i :: 0 <= i < |t| ==> ToLower(t)[i] == t[i];
  }
}
